=== FILE: README.md ===
# Booking bot: a verified model of its reservation and reminder engine

The bot lets clients book time slots. An admin creates the slots; a client shares a phone
number, picks a local date and then a time. A background worker sends a reminder a fixed
number of hours before each booked slot. This project models the core of that engine in
Dafny and proves its properties:

- **the SQLite store** (`booking_bot/db.py`) is the class `Store.Database`. It holds three
  tables, `users`, `slots` and `bookings`, as maps keyed by their AUTOINCREMENT ids, plus
  the three id counters. The schema's constraints are the class invariant `Valid()`:
  - `tg_user_id` is unique among users;
  - `slot_utc` is unique among slots;
  - `slot_id` is unique among bookings, so a slot has at most one booking;
  - every booking references an existing user and slot.

  Every operation keeps that invariant. Each states its new tables in full, its error
  cases, and the order of its listings.
- **the handlers** (`booking_bot/main.py`) are the module `Bot`. It covers:
  - the date and time listings offered to clients;
  - the phone guard of a booking;
  - the argument parsing and effects of `/addslot`, `/addslots` and `/delslot`;
  - one cycle of the reminder worker.

  The Telegram send of a reminder is an oracle, `delivered(bookingId)`.
- **local time** (`booking_bot/utils.py`) is the module `Time`. A zone is a fixed offset in
  minutes. A local date is a day number and a local time is a minute of the day, shown as
  an "HH:MM" label. `Time` proves:
  - the round trip between local time and UTC;
  - that label order equals time order;
  - the contract of `unique_sorted_dates_local`.
- **settings** (`booking_bot/config.py`) are the module `Config`. It covers the admin-id
  parser and the defaulting rules of `load_settings` over an environment map.

`Text` holds the few Python string operations the code relies on: `strip`,
`split(",")`, `split()`, `" ".join`, `isdigit` and `int`. `Sorting` holds the ordering
used by `ORDER BY` and `list.sort`.

Instants are integer seconds since the epoch. The SQL compares `slot_utc` as ISO text,
which sorts chronologically because every stored value has the same `+00:00` form. The
model therefore orders slots by their integer instant.

The reminder hours are computed as `reminder_hours_before or 2` (`booking_bot/db.py:287`),
so NULL and 0 both mean two hours. A value of 0 does not disable the reminder:
`reminder_enabled` is the only switch (`booking_bot/db.py:280`).

A reminder whose send fails is left unmarked (`booking_bot/main.py:323-327`), but it is not
sent later. A booking is due only while its slot starts within 60 seconds of the reminder
point (`booking_bot/db.py:288-290`), and the worker sleeps 60 seconds after every cycle
(`booking_bot/main.py:330`). The next poll is therefore always outside that window. The
model states this as written; "## Findings" records it with a corrected condition.

## Model

| member | source | states |
|---|---|---|
| Store.Database.Init | booking_bot/db.py:61-97 | a new database has three empty tables and satisfies the schema invariant (unique tg_user_id, unique slot_utc, one booking per slot, foreign keys) |
| Store.Database.UpsertUser | booking_bot/db.py:100-113 | a known tg_user_id keeps its row and id: chat_id, full_name and is_admin are overwritten, the phone is kept, and no row is added; an unknown one gets exactly one new row with a fresh id and no phone; the invariant is kept |
| Store.Database.SetUserPhone | booking_bot/db.py:115-118 | only the row with that tg_user_id gets the phone; every other row is unchanged, and so is the set of users |
| Store.Database.GetUserByTg | booking_bot/db.py:120-126 | None exactly when no user has that tg_user_id; otherwise the stored row with it |
| Store.Database.AddSlot | booking_bot/db.py:129-138 | an instant that already has a slot returns that slot's id and changes nothing, keeping its duration and note; otherwise exactly one new slot with a fresh id; the result always names a slot at that instant |
| Store.Database.DeleteSlot | booking_bot/db.py:140-144 | returns 1 if the slot existed and 0 otherwise; afterwards the slot is gone, no booking references it (cascade), and every other slot and booking is unchanged |
| Store.Database.UpdateSlotNote | booking_bot/db.py:146-150 | true exactly when the slot exists; only that slot's note changes |
| Store.Database.SelectSlots | booking_bot/db.py:152-187 | the shared slot query: exactly the stored slots that pass the filters (free, since, UTC day), each once, in strictly ascending slot_utc order |
| Store.Database.ListFreeSlots | booking_bot/db.py:152-173 | exactly the slots with no booking, at or after `since` when it is given, on the UTC day when it is given, ascending by slot_utc; the day filter is the corrected one from "## Findings", which keeps 23:59:59 |
| Store.Database.ListSlots | booking_bot/db.py:175-187 | exactly the stored slots, on the UTC day when it is given, ascending by slot_utc; the day filter is the corrected one from "## Findings" |
| Store.Database.CreateBooking | booking_bot/db.py:190-199 | fails with SlotAlreadyTaken when the slot has a booking, and fails when the user or slot is missing; a failure leaves the tables unchanged; success adds exactly one booking with a fresh id, reminder_sent false, status 'booked' and the given settings; succeeds exactly when the references exist and the slot is free |
| Store.Database.DistinctRowsDistinctTimes | booking_bot/db.py:81-87 | under the schema, two different joined booking rows have different slot instants, so ordering by slot_utc is strict |
| Store.Database.ListBookings | booking_bot/db.py:219-266 | exactly one row per booking, joined with its user and slot, filtered by UTC day when it is given (the corrected day filter from "## Findings"), in strictly ascending slot_utc order |
| Store.Database.MarkReminderSent | booking_bot/db.py:268-271 | only that booking's reminder_sent becomes true (no change for an unknown id); marking twice changes nothing more |
| Store.Database.FindDueReminders | booking_bot/db.py:273-293 | sound and complete: a row for exactly each booking that is unsent, enabled, 'booked', and whose slot starts in [now + h hours, now + h hours + 60 s); each row carries the user's chat_id and the effective hours; no booking appears twice |
| Store.EffectiveHours | booking_bot/db.py:287 | a stored non-zero value is used as is; NULL and 0 give the default of 2 hours |
| Store.SentNeverDue | booking_bot/db.py:280 | a booking whose reminder was sent is never due again, at any time |
| Store.DueAtOnePollOnly | booking_bot/db.py:288-291 | a booking due at one poll is not due at any poll 60 s or more before or after it; as polls are at least 60 s apart, a failed send is never retried |
| Store.PendingRetried | booking_bot/main.py:323-327 | the corrected condition, for a booking whose effective reminder hours are positive: a booking due at a poll stays pending at every later poll before its slot starts until it is marked sent, and is never pending once marked |
| Store.InUtcDayBounds | booking_bot/db.py:164-166 | the corrected day filter: an instant is on UTC day d exactly when it lies in [d 00:00:00, d+1 00:00:00) |
| Store.LastSecondOfDayDropped | booking_bot/db.py:164-166 | the bounds as written leave out d 23:59:59, which is on day d |
| Sorting.SortByKey | booking_bot/main.py:65 | the result is sorted by the key, is a permutation of the input, and is stable: for every key, the elements with that key keep their input order |
| Text.ParseInt | booking_bot/config.py:20 | yields a value exactly for optionally signed, non-empty decimal digit strings; non-negative unless the text starts with '-' |
| Text.ParseIntValue | booking_bot/config.py:20 | the value of digits is their decimal value, negated after '-' and unchanged after '+' |
| Text.ParseIntRoundTrip | booking_bot/config.py:20 | int() reads back the decimal text of every integer |
| Text.DecimalTextRoundTrip | booking_bot/main.py:221 | the decimal text of a slot id, as a reply shows it, reads back as that id |
| Text.Strip | booking_bot/config.py:16 | the result neither starts nor ends with whitespace |
| Text.StripBetween | booking_bot/config.py:16 | the stripped text is a contiguous piece of the input with only whitespace before and after it |
| Text.Split | booking_bot/config.py:15 | at least one part, and no part contains the separator |
| Text.SplitJoin | booking_bot/config.py:15 | joining the parts with the separator gives the input back |
| Text.Words | booking_bot/main.py:210 | every word is non-empty and contains no whitespace |
| Text.WordsCoverText | booking_bot/main.py:210 | any text is exactly its words interleaved with whitespace runs, non-empty between two words, so the words are the maximal non-whitespace runs, in order |
| Text.JoinWords | booking_bot/main.py:216 | joining whitespace-free words adds no whitespace other than the single spaces between them; with WordsJoinWords, splitting the result gives the words back |
| Text.WordsJoinWords | booking_bot/main.py:216 | splitting words joined by single spaces gives the words back |
| Time.UtcToLocal | booking_bot/utils.py:16-21 | the local reading is a valid day and minute, and the instant lies inside that local minute |
| Time.WallClockUnique | booking_bot/utils.py:16-21 | only one local reading contains a given instant |
| Time.LocalUtcRoundTrip | booking_bot/utils.py:8-21 | converting a local reading to UTC and back gives the same reading |
| Time.LocalDateBounds | booking_bot/utils.py:18-21 | an instant is on local date d exactly when it lies between local midnight of d and of d+1 |
| Time.NextLocalDayExample | booking_bot/utils.py:18-21 | 2024-01-01T23:30Z is on UTC day 19723 but on local day 19724 at 02:30 under UTC+03:00 |
| Time.FormatClock | booking_bot/utils.py:21 | the label has five characters with ':' in the middle |
| Time.ParseClock | booking_bot/utils.py:11 | a parsed time is a valid minute of the day |
| Time.ClockRoundTrip | booking_bot/utils.py:11-21 | parsing the label of a minute gives the minute back |
| Time.ClockLabelCanonical | booking_bot/utils.py:11-21 | a time text that parses is the label of the minute it parses to |
| Time.ClockLabelOrder | booking_bot/main.py:65 | comparing "HH:MM" labels as text orders them by time of day |
| Time.LocalToUtcIso | booking_bot/utils.py:8-13 | converting "date time" to UTC succeeds exactly when the time parses |
| Time.UtcToLocalStr | booking_bot/utils.py:16-21 | the shown "HH:MM" label parses, and the shown date and time name the local minute that contains the instant |
| Time.LocalStrRoundTrip | booking_bot/utils.py:8-21 | converting a local date and time to UTC and back gives the same date and "HH:MM" text |
| Time.UniqueSortedDatesLocal | booking_bot/utils.py:24-33 | the local dates come out strictly ascending (so without repeats); each input's date is present, each output date is some input's date, and there are no more dates than inputs |
| Config.PartId | booking_bot/config.py:16-22 | a part yields an id exactly when it is non-blank after stripping and int() accepts the stripped text, and the id is that value |
| Config.PresentCount | booking_bot/config.py:14-23 | there are as many ids as parts that yielded one, and no more than parts |
| Config.PresentPositionsAscend | booking_bot/config.py:14-23 | the parts that yielded ids are listed in ascending position, and each did yield an id |
| Config.PresentComplete | booking_bot/config.py:17-22 | every part that yields an id is listed: no valid entry is dropped |
| Config.PresentInOrder | booking_bot/config.py:14-23 | the k-th id is the value of the k-th yielding part, so ids keep input order |
| Config.AdminIdsFromParts | booking_bot/config.py:14-23 | at most one id per part; each id is int() of a stripped, non-blank part; ids follow part order; every part whose stripped text is non-blank and accepted by int() contributes its id |
| Config.AdminIds | booking_bot/config.py:11-23 | None and "" give []; otherwise exactly the ids of the comma-separated parts that survive the blank and ValueError skips |
| Config.LoadSettings | booking_bot/config.py:34-48 | fails exactly when BOT_TOKEN is missing or empty; otherwise the token, the timezone (TZ, else TIMEZONE, else Europe/Moscow), the database path (DATABASE_PATH, else the default) and the parsed admin ids |
| Bot.ListDatesKeyboard | booking_bot/main.py:48-53 | None exactly when no free slot starts at or after now; otherwise the local dates of those slots, each present, none invented, strictly ascending |
| Bot.ChoicesOn | booking_bot/main.py:59-64 | one button per free slot on the local date, showing its local minute, with no slot listed twice |
| Bot.ListTimesKeyboard | booking_bot/main.py:56-68 | None exactly when no free slot falls on the local date; otherwise exactly those slots, each once, sorted by time of day |
| Bot.OnBook | booking_bot/main.py:143-154 | without a stored user with a non-empty phone, nothing is written; otherwise the booking is confirmed exactly when the slot exists and is free, adding one booking for that user and slot with one guest and a two-hour enabled reminder; any failure leaves the bookings unchanged |
| Bot.BookSameSlotTwice | booking_bot/main.py:143-154 | of two successive booking attempts on one slot, at most one is confirmed, and exactly one booking is added when one is |
| Bot.ParseAddSlot | booking_bot/main.py:210-216 | the usage reply exactly below three words; date and time are the second and third words; a note exactly from five words on, and then it is those words joined by single spaces; the duration is int() of the fourth word when it is all digits, and 60 otherwise |
| Bot.AddSlotNoteKeepsWords | booking_bot/main.py:216 | the note joined from the message keeps the words typed after the duration, in order |
| Bot.TimeTokensMembers | booking_bot/main.py:236-238 | the collected times are exactly the tokens containing ':' with length at most 5 |
| Bot.TimeTokensConcat | booking_bot/main.py:236-238 | collecting times distributes over concatenation, so times keep input order |
| Bot.LastDigitTokenWins | booking_bot/main.py:239-240 | the last all-digit token sets the duration |
| Bot.NoDigitTokenDefault | booking_bot/main.py:234 | without an all-digit token the duration is 60 |
| Bot.OtherTokenIgnored | booking_bot/main.py:241-243 | a token that is neither a time nor all digits changes neither the times nor the duration |
| Bot.ParseAddSlots | booking_bot/main.py:228-246 | the usage reply exactly below three words, the no-time reply exactly when no token is a time, otherwise the date, the times in order and the duration |
| Bot.CmdAddSlot | booking_bot/main.py:206-221 | ignored for non-admins; usage below three words; a slot is stored exactly when date and time convert and the duration fits SQLite's 64-bit INTEGER; the reply names a slot at that instant and echoes the typed date and time; existing slots are untouched; on failure nothing changes |
| Bot.AddSlotsOn | booking_bot/main.py:247-251 | one slot per time in order, each at its converted instant; it stops at the first time that does not convert, keeping the earlier slots, and adds nothing when the duration does not fit SQLite's 64-bit INTEGER; new slots carry the duration, no note and the sender; existing slots are untouched |
| Bot.CmdAddSlots | booking_bot/main.py:224-252 | ignored for non-admins; usage and no-time replies as parsed; otherwise the creation loop over the parsed times and duration, nothing added when the date does not parse or the duration does not fit SQLite's 64-bit INTEGER |
| Bot.ParseDelSlot | booking_bot/main.py:302-306 | an id exactly when the second word is all digits, and then it is int() of that word |
| Bot.DelSlotOfShownId | booking_bot/main.py:302-306 | typing back the id a reply shows selects that slot |
| Bot.CmdDelSlot | booking_bot/main.py:298-311 | ignored for non-admins; usage for a bad argument; an id beyond SQLite's 64-bit INTEGER raises, so there is no reply and nothing changes; otherwise Deleted or NotFound by whether the slot existed, with the slot and its booking gone and every other slot and booking unchanged |
| Bot.AfterCycleStep | booking_bot/main.py:323-325 | one more attempt marks its booking exactly when delivered and changes nothing else |
| Bot.DueIds | booking_bot/main.py:319 | the booking ids of the reminder query are exactly the bookings due now |
| Bot.SendReminders | booking_bot/main.py:321-327 | after the send loop, exactly the delivered bookings are marked sent; failed sends leave their flag unset and do not stop the rest |
| Bot.ReminderCycle | booking_bot/main.py:317-329 | the corrected cycle: every due booking gets one attempt; delivered ones are marked and are never due again; failed ones stay unmarked and still due at that poll, though not at later ones (Store.DueAtOnePollOnly) |
| Bot.ReminderRowsDoNotUnpack | booking_bot/main.py:321 | a five-field reminder row never unpacks into the loop's four names |
| Bot.ReminderCycleAsWritten | booking_bot/main.py:318-329 | the cycle as written: no send is attempted, no booking is marked, and every due booking stays due |

## Left out

- SQLite mechanics (connections, PRAGMAs, WAL, commits, row factories): the tables are maps, and each statement's effect is applied to them at once.
- Concurrency: the asyncio loop, the unused lock and simultaneous claims. Claims are sequential, and the UNIQUE(slot_id) check stands for atomicity.
- The worker's endless loop and its 60-second sleep: one cycle is modelled.
- Telegram I/O: message and callback text, keyboards, the booking confirmation, the admin notifications, and the refreshed time list after a failed booking.
- ensure_user_record, on_start, on_contact, on_refresh_dates, on_choose_date, on_back_to_dates, on_cancel, cmd_listfree and cmd_listbookings: each composes modelled operations with Telegram I/O.
- get_booking_with_user_and_slot: it always returns None.
- setup_env.py, test_db.py and keyboards.py are not part of this model.
- Clocks: "now" is a parameter, as are created_at values, and sub-second precision is dropped.
- Calendar text: a "YYYY-MM-DD" date is a day number. Bot.CmdAddSlot and Bot.CmdAddSlots take the parsing of the date text as a parameter.
- Time zone names: a name such as "Europe/Moscow" is a fixed offset. There is no tz database and no DST gaps or folds.
- Time.UtcToLocal: correct for fixed offsets only, not for zones whose offset changes over the year.
- Time.ParseClock: accepts only the two-digit "HH:MM" form. strptime also accepts one-digit fields such as "9:05".
- Text.ParseInt: ASCII digits and an optional sign only. Python's int() also accepts underscores and non-ASCII digits.
- Text.Strip: only ASCII whitespace is stripped, and Text.Words splits only on ASCII whitespace.
- Store.PendingRetried: stated only for positive effective reminder hours. The schema allows a negative reminder_hours_before; its due window then falls after the slot starts, where the corrected condition ends.
- Bot.ParseAddSlot, Bot.ParseAddSlots, Bot.ParseDelSlot: "isdigit" is taken as ASCII digits only.
- Store.Database: its methods take unbounded integers. SQLite's 64-bit INTEGER limit is modelled in the handlers where a typed value can exceed it: the duration of /addslot and /addslots and the id of /delslot. Telegram ids, chat ids and instants stay far below it.
- Bot.ListTimesKeyboard: the order among buttons with the same minute (two slots in one minute but different seconds) is not stated.
- Store.Database.FindDueReminders: the order of its rows is not stated, since the query has no ORDER BY.
- AUTOINCREMENT: the model assumes that an ignored or failed INSERT consumes no id. A new row takes the counter's value as its id, and the counter moves one past it.
- Python exceptions that end a handler, such as the ValueError of a bad date or time, become a reply value of the model.

## Findings

| source | as written | input that shows it | evidently intended | confidence | as-written member | corrected member |
|---|---|---|---|---|---|---|
| booking_bot/main.py:321 | `for booking_id, chat_id, slot_id, slot_iso in candidates` unpacks rows that find_bookings_for_reminder builds with five fields (db.py:292) | any booking due at a poll, e.g. a booking whose slot starts exactly two hours after `now`: the unpack raises ValueError, the outer handler (main.py:328) logs it, and no reminder is sent | unpack the five fields and send every due reminder | high, not executed | Bot.ReminderCycleAsWritten | Bot.ReminderCycle |
| booking_bot/main.py:323-327 | a failed send leaves reminder_sent unset, but a booking is due only while its slot starts within 60 s of the reminder point (db.py:288-290), and the next poll comes at least 60 s later (main.py:330) | a booking due at a poll whose send fails: at the next poll it is outside the window, so its reminder is never sent | the unmarked reminder is tried again at later polls until it is delivered or the slot starts | medium, not executed | Store.DueAtOnePollOnly | Store.PendingRetried |
| booking_bot/db.py:164-166 | the date_only filter keeps `slot_utc < "DT23:59:59+00:00"` | a slot at 23:59:59 UTC on day D is not listed for D (also in list_slots and list_bookings) | the end bound is the next midnight | medium, not executed; no handler passes date_only today | Store.LastSecondOfDayDropped | Store.InUtcDayBounds |

=== FILE: bot.dfy ===
/**
 * The booking and reminder logic of the bot (booking_bot/main.py): the date and time
 * listings offered to clients, the phone guard of a booking attempt, the argument
 * parsing of the admin commands, and one cycle of the reminder worker. Telegram sends
 * are replaced by their outcome: `delivered(k)` says whether the reminder send for
 * booking `k` succeeds.
 */
module Bot {
  import opened Wrappers
  import opened Sorting
  import opened Text
  import opened Time
  import opened Store

  /** A time button: the slot id and the local minute of day shown as its "HH:MM" label (FormatClock). */
  datatype TimeChoice = TimeChoice(slotId: int, minute: int)

  function ChoiceMinute(c: TimeChoice): int { c.minute }

  /** The slot is free and starts at or after `now`. */
  predicate OpenFrom(db: Database, k: int, now: int)
    reads db
  {
    db.IsFree(k) && db.slots[k].slotUtc >= now
  }

  /** The slot is free and falls on local date `date`. */
  predicate OpenOn(db: Database, k: int, date: int, z: Zone)
    reads db
  {
    db.IsFree(k) && LocalDate(db.slots[k].slotUtc, z) == date
  }

  /**
   * list_dates_keyboard: no dates (None) exactly when no free slot starts at or after `now`;
   * otherwise the distinct local dates of those slots, ascending.
   */
  method ListDatesKeyboard(db: Database, now: int, z: Zone) returns (dates: Option<seq<int>>)
    requires db.Valid()
    ensures dates.None? <==> !exists k :: OpenFrom(db, k, now)
    ensures dates.Some? ==> StrictlySortedBy(dates.value, d => d)
    ensures dates.Some? ==> forall k :: OpenFrom(db, k, now) ==> LocalDate(db.slots[k].slotUtc, z) in dates.value
    ensures dates.Some? ==> forall d :: d in dates.value ==> exists k :: OpenFrom(db, k, now) && LocalDate(db.slots[k].slotUtc, z) == d
  {
    var free := db.ListFreeSlots(Some(now), None);
    forall k | OpenFrom(db, k, now) ensures db.slots[k] in free {
    }
    if free == [] {
      return None;
    }
    assert OpenFrom(db, free[0].id, now) by {
      assert free[0] in free;
    }
    var instants := seq(|free|, i requires 0 <= i < |free| => free[i].slotUtc);
    var found := UniqueSortedDatesLocal(instants, z);
    forall k | OpenFrom(db, k, now) ensures LocalDate(db.slots[k].slotUtc, z) in found {
      var s := db.slots[k];
      assert s in free;
      var i :| 0 <= i < |free| && free[i] == s;
      assert instants[i] == s.slotUtc;
    }
    forall d | d in found ensures exists k :: OpenFrom(db, k, now) && LocalDate(db.slots[k].slotUtc, z) == d {
      var m :| 0 <= m < |found| && found[m] == d;
      var i :| 0 <= i < |instants| && LocalDate(instants[i], z) == d;
      assert free[i] in free;
      assert OpenFrom(db, free[i].id, now);
    }
    dates := Some(found);
  }

  /** `c` is the button for a free slot on local date `date`, shown at its local minute. */
  predicate ChoiceOn(db: Database, c: TimeChoice, date: int, z: Zone)
    reads db
  {
    OpenOn(db, c.slotId, date, z) && c.minute == UtcToLocal(db.slots[c.slotId].slotUtc, z).minute
  }

  /** The buttons of list_times_keyboard before sorting: one per free slot on `date`. */
  method ChoicesOn(db: Database, z: Zone, date: int) returns (found: seq<TimeChoice>)
    requires db.Valid()
    ensures forall c :: c in found <==> ChoiceOn(db, c, date, z)
    ensures forall a, b :: 0 <= a < b < |found| ==> found[a].slotId != found[b].slotId
  {
    var free := db.ListFreeSlots(None, None);
    found := [];
    for i := 0 to |free|
      invariant forall c :: c in found ==> ChoiceOn(db, c, date, z)
      invariant forall c :: c in found ==> exists m :: 0 <= m < i && free[m].id == c.slotId
      invariant forall m :: 0 <= m < i && LocalDate(free[m].slotUtc, z) == date ==>
                  TimeChoice(free[m].id, UtcToLocal(free[m].slotUtc, z).minute) in found
      invariant forall a, b :: 0 <= a < b < |found| ==> found[a].slotId != found[b].slotId
    {
      var s := free[i];
      assert s in free;
      var local := UtcToLocal(s.slotUtc, z);
      if local.day == date {
        forall a | 0 <= a < |found| ensures found[a].slotId != s.id {
          assert found[a] in found;
          var m :| 0 <= m < i && free[m].id == found[a].slotId;
          assert free[m] in free;
        }
        found := found + [TimeChoice(s.id, local.minute)];
      }
    }
    forall c | ChoiceOn(db, c, date, z) ensures c in found {
      var s := db.slots[c.slotId];
      assert s in free;
      var m :| 0 <= m < |free| && free[m] == s;
    }
  }

  /**
   * list_times_keyboard: the free slots whose local date is `date`, each once, ordered by
   * their "HH:MM" label (ClockLabelOrder: by minute of day); None when there is none.
   */
  method ListTimesKeyboard(db: Database, z: Zone, date: int) returns (pairs: Option<seq<TimeChoice>>)
    requires db.Valid()
    ensures pairs.None? <==> !exists k :: OpenOn(db, k, date, z)
    ensures pairs.Some? ==> SortedBy(pairs.value, ChoiceMinute)
    ensures pairs.Some? ==> forall c :: c in pairs.value <==> ChoiceOn(db, c, date, z)
    ensures pairs.Some? ==> forall i, j :: 0 <= i < j < |pairs.value| ==> pairs.value[i].slotId != pairs.value[j].slotId
  {
    var found := ChoicesOn(db, z, date);
    forall k | OpenOn(db, k, date, z) ensures TimeChoice(k, UtcToLocal(db.slots[k].slotUtc, z).minute) in found {
      assert ChoiceOn(db, TimeChoice(k, UtcToLocal(db.slots[k].slotUtc, z).minute), date, z);
    }
    if found == [] {
      return None;
    }
    assert found[0] in found;
    var sorted := SortByKey(found, ChoiceMinute);
    DistinctPermutation(found, sorted);
    forall c ensures c in sorted <==> c in found {
      assert c in sorted <==> c in multiset(sorted);
      assert c in found <==> c in multiset(found);
    }
    forall i, j | 0 <= i < j < |sorted| ensures sorted[i].slotId != sorted[j].slotId {
      assert sorted[i] in sorted && sorted[j] in sorted;
    }
    assert OpenOn(db, found[0].slotId, date, z);
    pairs := Some(sorted);
  }

  /** on_book lets a client book only with a stored, non-empty phone (`not user.phone` rejects None and ""). */
  predicate HasPhone(u: User) {
    u.phone.Some? && u.phone.value != ""
  }

  predicate KnownWithPhone(users: map<int, User>, tgUserId: int) {
    exists k :: k in users && users[k].tgUserId == tgUserId && HasPhone(users[k])
  }

  datatype BookOutcome = NeedPhone | SlotTaken | Confirmed(bookingId: int)

  /**
   * on_book: a client without a record or a phone is sent back to /start and nothing is
   * written; otherwise create_booking with the defaults (one guest, reminder two hours
   * before, enabled), and any failure of it is reported as the slot having been taken.
   */
  method OnBook(db: Database, tgUserId: int, slotId: int, now: int) returns (outcome: BookOutcome)
    requires db.Valid()
    modifies db`bookings, db`nextBookingId
    ensures db.Valid()
    ensures outcome == NeedPhone <==> !old(KnownWithPhone(db.users, tgUserId))
    ensures outcome.Confirmed? <==>
              old(KnownWithPhone(db.users, tgUserId)) && slotId in old(db.slots) && !old(SlotBooked(db.bookings, slotId))
    ensures !outcome.Confirmed? ==> db.bookings == old(db.bookings)
    ensures outcome.Confirmed? ==> outcome.bookingId in db.bookings
    ensures outcome.Confirmed? ==>
              var b := db.bookings[outcome.bookingId];
              outcome.bookingId !in old(db.bookings) &&
              db.bookings == old(db.bookings)[outcome.bookingId := b] &&
              b.slotId == slotId && db.users[b.userId].tgUserId == tgUserId &&
              b.guestsCount == 1 && b.reminderHoursBefore == Some(DefaultReminderHours) && b.reminderEnabled == 1 &&
              !b.reminderSent && b.status == BookedStatus
  {
    var user := db.GetUserByTg(tgUserId);
    if user.None? || user.value.phone.None? || user.value.phone.value == "" {
      return NeedPhone;
    }
    var created := db.CreateBooking(user.value.id, slotId, 1, Some(DefaultReminderHours), 1, now);
    match created {
      case Err(_) => outcome := SlotTaken;
      case Ok(id) => outcome := Confirmed(id);
    }
  }

  /**
   * Two clients pressing the same time button one after the other: the UNIQUE slot_id
   * lets at most one booking through, and the second attempt on a confirmed slot is refused.
   */
  method BookSameSlotTwice(db: Database, first: int, second: int, slotId: int, now: int)
    returns (a: BookOutcome, b: BookOutcome)
    requires db.Valid()
    modifies db`bookings, db`nextBookingId
    ensures db.Valid()
    ensures !(a.Confirmed? && b.Confirmed?)
    ensures a.Confirmed? ==> b != NeedPhone ==> b == SlotTaken
    ensures a.Confirmed? || b.Confirmed? ==> |db.bookings.Keys| == |old(db.bookings).Keys| + 1
  {
    a := OnBook(db, first, slotId, now);
    b := OnBook(db, second, slotId, now);
  }

  /** An /addslot request: date and time text, duration in minutes, optional note. */
  datatype AddSlotRequest = AddSlotRequest(date: string, time: string, durationMinutes: int, note: Option<string>)

  /**
   * The argument parsing of cmd_addslot over the words of the message: fewer than three
   * words is the usage reply (None); the duration is the fourth word when it is all digits,
   * else 60; the note is the words from the fifth on, joined by single spaces.
   */
  function ParseAddSlot(parts: seq<string>): (r: Option<AddSlotRequest>)
    ensures r.None? <==> |parts| < 3
    ensures r.Some? ==> r.value.date == parts[1] && r.value.time == parts[2]
    ensures r.Some? ==> (r.value.note.Some? <==> |parts| >= 5)
    ensures r.Some? && |parts| >= 5 ==> r.value.note == Some(JoinWords(parts[4..]))
    ensures r.Some? && |parts| >= 4 && IsDigits(parts[3]) ==> r.value.durationMinutes == DecimalValue(parts[3])
    ensures r.Some? && !(|parts| >= 4 && IsDigits(parts[3])) ==> r.value.durationMinutes == 60
  {
    if |parts| < 3 then None
    else
      var duration := if |parts| >= 4 && IsDigits(parts[3]) then DecimalValue(parts[3]) else 60;
      var note := if |parts| >= 5 then Some(JoinWords(parts[4..])) else None;
      Some(AddSlotRequest(parts[1], parts[2], duration, note))
  }

  /** The note of /addslot keeps the words the admin typed after the duration, in order. */
  lemma AddSlotNoteKeepsWords(text: string)
    requires ParseAddSlot(Words(text)).Some? && ParseAddSlot(Words(text)).value.note.Some?
    ensures Words(ParseAddSlot(Words(text)).value.note.value) == Words(text)[4..]
  {
    WordsJoinWords(Words(text)[4..]);
  }

  /** A token /addslots takes for a time: it contains ':' and is at most five characters long. */
  predicate IsTimeToken(t: string) {
    ':' in t && |t| <= 5
  }

  /** The time tokens among `tokens`, in input order. */
  function TimeTokens(tokens: seq<string>): (times: seq<string>)
    ensures |times| <= |tokens|
    decreases |tokens|
  {
    if tokens == [] then []
    else
      var n := |tokens| - 1;
      TimeTokens(tokens[..n]) + (if IsTimeToken(tokens[n]) then [tokens[n]] else [])
  }

  /** The time tokens are exactly the tokens that look like a time. */
  lemma {:induction false} TimeTokensMembers(tokens: seq<string>)
    ensures forall t :: t in TimeTokens(tokens) <==> t in tokens && IsTimeToken(t)
    decreases |tokens|
  {
    if tokens != [] {
      var n := |tokens| - 1;
      TimeTokensMembers(tokens[..n]);
      assert tokens == tokens[..n] + [tokens[n]];
    }
  }

  /** Picking the time tokens distributes over concatenation: their relative order is the input order. */
  lemma {:induction false} TimeTokensConcat(a: seq<string>, b: seq<string>)
    ensures TimeTokens(a + b) == TimeTokens(a) + TimeTokens(b)
    decreases |b|
  {
    if b == [] {
      assert a + b == a;
    } else {
      var c := b[..|b| - 1];
      TimeTokensConcat(a, c);
      assert b == c + [b[|b| - 1]];
      TimeTokensConcatSnoc(a, c, b[|b| - 1]);
    }
  }

  /** The step of TimeTokensConcat: one more token at the end of the second part. */
  lemma TimeTokensConcatSnoc(a: seq<string>, c: seq<string>, x: string)
    requires TimeTokens(a + c) == TimeTokens(a) + TimeTokens(c)
    ensures TimeTokens(a + (c + [x])) == TimeTokens(a) + TimeTokens(c + [x])
  {
    var ta, tc, e := TimeTokens(a), TimeTokens(c), if IsTimeToken(x) then [x] else [];
    assert a + (c + [x]) == (a + c) + [x];
    TimeTokensSnoc(a + c, x);
    TimeTokensSnoc(c, x);
    assert (ta + tc) + e == ta + (tc + e);
  }

  /** One more token: appended to the time tokens exactly when it is one. */
  lemma TimeTokensSnoc(ts: seq<string>, t: string)
    ensures TimeTokens(ts + [t]) == TimeTokens(ts) + (if IsTimeToken(t) then [t] else [])
  {
    assert (ts + [t])[..|ts|] == ts;
  }

  /** The duration /addslots settles on: the value of the last all-digit token, 60 without one. */
  function DurationOf(tokens: seq<string>): (minutes: int)
    decreases |tokens|
  {
    if tokens == [] then 60
    else
      var n := |tokens| - 1;
      if IsTimeToken(tokens[n]) then DurationOf(tokens[..n])
      else if IsDigits(tokens[n]) then DecimalValue(tokens[n])
      else DurationOf(tokens[..n])
  }

  /** The last all-digit token sets the duration, whatever digit tokens came before it. */
  lemma {:induction false} LastDigitTokenWins(tokens: seq<string>, j: int)
    requires 0 <= j < |tokens| && IsDigits(tokens[j])
    requires forall k :: j < k < |tokens| ==> !IsDigits(tokens[k])
    ensures DurationOf(tokens) == DecimalValue(tokens[j])
    decreases |tokens|
  {
    var n := |tokens| - 1;
    assert !IsTimeToken(tokens[j]);
    if j < n {
      LastDigitTokenWins(tokens[..n], j);
    }
  }

  /** Without an all-digit token the duration is the default 60 minutes. */
  lemma {:induction false} NoDigitTokenDefault(tokens: seq<string>)
    requires forall k :: 0 <= k < |tokens| ==> !IsDigits(tokens[k])
    ensures DurationOf(tokens) == 60
    decreases |tokens|
  {
    if tokens != [] {
      NoDigitTokenDefault(tokens[..|tokens| - 1]);
    }
  }

  /** A token that is neither a time nor all digits changes neither the times nor the duration. */
  lemma OtherTokenIgnored(tokens: seq<string>, t: string)
    requires !IsTimeToken(t) && !IsDigits(t)
    ensures TimeTokens(tokens + [t]) == TimeTokens(tokens)
    ensures DurationOf(tokens + [t]) == DurationOf(tokens)
  {
    assert (tokens + [t])[..|tokens|] == tokens;
  }

  /** An /addslots request: the date text, the time tokens in order, and the duration. */
  datatype AddSlotsRequest = AddSlotsRequest(date: string, times: seq<string>, durationMinutes: int)

  datatype AddSlotsParse = AddSlotsUsage | NoTimes | AddSlotsParsed(request: AddSlotsRequest)

  /**
   * The argument parsing of cmd_addslots over the words of the message: fewer than three
   * words is the usage reply; the words after the date are scanned once, time tokens
   * collected and all-digit tokens overwriting the duration; no time token is refused.
   */
  method ParseAddSlots(parts: seq<string>) returns (r: AddSlotsParse)
    ensures r == AddSlotsUsage <==> |parts| < 3
    ensures r == NoTimes <==> |parts| >= 3 && TimeTokens(parts[2..]) == []
    ensures r.AddSlotsParsed? ==>
              r.request == AddSlotsRequest(parts[1], TimeTokens(parts[2..]), DurationOf(parts[2..])) &&
              r.request.times != []
  {
    if |parts| < 3 {
      return AddSlotsUsage;
    }
    var date := parts[1];
    var tokens := parts[2..];
    var times: seq<string> := [];
    var duration := 60;
    for i := 0 to |tokens|
      invariant times == TimeTokens(tokens[..i])
      invariant duration == DurationOf(tokens[..i])
    {
      assert tokens[..i + 1][..i] == tokens[..i];
      var token := tokens[i];
      if ':' in token && |token| <= 5 {
        times := times + [token];
      } else if IsDigits(token) {
        duration := DecimalValue(token);
      }
    }
    assert tokens[..|tokens|] == tokens;
    if times == [] {
      return NoTimes;
    }
    r := AddSlotsParsed(AddSlotsRequest(date, times, duration));
  }

  /** `after` keeps every slot of `before` as it was; every slot it adds carries the given duration, note and creator. */
  predicate AddedBy(before: map<int, Slot>, after: map<int, Slot>, sender: int, durationMinutes: int, note: Option<string>) {
    && (forall k :: k in before ==> k in after && after[k] == before[k])
    && (forall k :: k in after && k !in before ==>
          after[k].durationMinutes == durationMinutes && after[k].note == note && after[k].createdBy == Some(sender))
  }

  datatype AddSlotReply = AddSlotIgnored | AddSlotUsage | SlotAdded(slotId: int, date: int, shown: string) | AddSlotFailed

  /**
   * cmd_addslot: ignored unless the sender is an admin; the usage reply below three words;
   * otherwise the local date and time are converted to UTC and add_slot stores the slot
   * (or finds the one already at that instant), and the reply shows the slot's local date
   * and time. `parseDate` turns the YYYY-MM-DD text into a day number; when it or the time
   * does not parse, the conversion raises and the handler ends without a reply or a slot.
   * So it does when the duration does not fit SQLite's 64-bit INTEGER: binding it raises.
   */
  method CmdAddSlot(db: Database, sender: int, adminIds: seq<int>, text: string, z: Zone,
                    parseDate: string -> Option<int>) returns (reply: AddSlotReply)
    requires db.Valid()
    modifies db`slots, db`nextSlotId
    ensures db.Valid()
    ensures reply == AddSlotIgnored <==> sender !in adminIds
    ensures reply == AddSlotUsage <==> sender in adminIds && |Words(text)| < 3
    ensures reply.SlotAdded? || reply == AddSlotFailed ==> ParseAddSlot(Words(text)).Some?
    ensures reply.SlotAdded? || reply == AddSlotFailed ==>
              var req := ParseAddSlot(Words(text)).value;
              && (reply.SlotAdded? <==>
                    && parseDate(req.date).Some? && LocalToUtcIso(parseDate(req.date).value, req.time, z).Some?
                    && FitsSqlInteger(req.durationMinutes))
              && (reply.SlotAdded? ==>
                    && reply.slotId in db.slots
                    && Some(db.slots[reply.slotId].slotUtc) == LocalToUtcIso(parseDate(req.date).value, req.time, z)
                    && reply.date == parseDate(req.date).value && reply.shown == req.time
                    && AddedBy(old(db.slots), db.slots, sender, req.durationMinutes, req.note)
                    && db.slots.Keys <= old(db.slots).Keys + {reply.slotId})
    ensures !reply.SlotAdded? ==> db.slots == old(db.slots)
  {
    if sender !in adminIds {
      return AddSlotIgnored;
    }
    var request := ParseAddSlot(Words(text));
    if request.None? {
      return AddSlotUsage;
    }
    var req := request.value;
    var day := parseDate(req.date);
    if day.None? {
      return AddSlotFailed;
    }
    var utc := LocalToUtcIso(day.value, req.time, z);
    if utc.None? || !FitsSqlInteger(req.durationMinutes) {
      return AddSlotFailed;
    }
    var id := db.AddSlot(utc.value, req.durationMinutes, req.note, Some(sender));
    LocalStrRoundTrip(day.value, req.time, z);
    var (date, shown) := UtcToLocalStr(utc.value, z);
    reply := SlotAdded(id, date, shown);
  }

  datatype AddSlotsReply =
    | AddSlotsIgnored
    | AddSlotsUsageReply
    | AddSlotsNoTimes
    | SlotsAdded(created: seq<int>)
    | AddSlotsFailed(created: seq<int>)

  /**
   * The creation loop of cmd_addslots: one add_slot per time on local day `day`, in order,
   * with the given duration, no note and `sender` as creator. It stops at the first time
   * that does not convert (`complete` is false): the slots added before it stay. A duration
   * beyond SQLite's 64-bit INTEGER makes the first add_slot raise, so nothing is added.
   */
  method AddSlotsOn(db: Database, sender: int, day: int, times: seq<string>, durationMinutes: int, z: Zone)
    returns (created: seq<int>, complete: bool)
    requires db.Valid()
    modifies db`slots, db`nextSlotId
    ensures db.Valid()
    ensures |created| <= |times|
    ensures complete <==> |created| == |times|
    ensures !complete ==> LocalToUtcIso(day, times[|created|], z).None? || !FitsSqlInteger(durationMinutes)
    ensures !FitsSqlInteger(durationMinutes) ==> created == []
    ensures forall i :: 0 <= i < |created| ==>
              created[i] in db.slots && Some(db.slots[created[i]].slotUtc) == LocalToUtcIso(day, times[i], z)
    ensures AddedBy(old(db.slots), db.slots, sender, durationMinutes, None)
    ensures forall k :: k in db.slots && k !in old(db.slots) ==> k in created
  {
    created := [];
    for i := 0 to |times|
      invariant db.Valid()
      invariant |created| == i
      invariant !FitsSqlInteger(durationMinutes) ==> created == []
      invariant forall j :: 0 <= j < i ==>
                  created[j] in db.slots && Some(db.slots[created[j]].slotUtc) == LocalToUtcIso(day, times[j], z)
      invariant AddedBy(old(db.slots), db.slots, sender, durationMinutes, None)
      invariant forall k :: k in db.slots && k !in old(db.slots) ==> k in created
    {
      var utc := LocalToUtcIso(day, times[i], z);
      if utc.None? || !FitsSqlInteger(durationMinutes) {
        return created, false;
      }
      var id := db.AddSlot(utc.value, durationMinutes, None, Some(sender));
      created := created + [id];
    }
    complete := true;
  }

  /**
   * cmd_addslots: ignored unless the sender is an admin; the usage and no-time replies of
   * the argument parsing; otherwise the creation loop. A date text that does not parse
   * raises before any slot is added.
   */
  method CmdAddSlots(db: Database, sender: int, adminIds: seq<int>, text: string, z: Zone,
                     parseDate: string -> Option<int>) returns (reply: AddSlotsReply)
    requires db.Valid()
    modifies db`slots, db`nextSlotId
    ensures db.Valid()
    ensures reply == AddSlotsIgnored <==> sender !in adminIds
    ensures reply == AddSlotsUsageReply <==> sender in adminIds && |Words(text)| < 3
    ensures reply == AddSlotsNoTimes <==> sender in adminIds && |Words(text)| >= 3 && TimeTokens(Words(text)[2..]) == []
    ensures reply.SlotsAdded? || reply.AddSlotsFailed? ==>
              var parts := Words(text);
              var times := TimeTokens(parts[2..]);
              var day := parseDate(parts[1]);
              && |reply.created| <= |times|
              && (reply.SlotsAdded? ==> day.Some? && |reply.created| == |times|)
              && (reply.AddSlotsFailed? && day.Some? ==>
                    && |reply.created| < |times|
                    && (LocalToUtcIso(day.value, times[|reply.created|], z).None? ||
                        !FitsSqlInteger(DurationOf(parts[2..]))))
              && (day.None? || !FitsSqlInteger(DurationOf(parts[2..])) ==> reply.created == [])
              && (forall i :: 0 <= i < |reply.created| ==>
                    && day.Some?
                    && reply.created[i] in db.slots
                    && Some(db.slots[reply.created[i]].slotUtc) == LocalToUtcIso(day.value, times[i], z))
              && AddedBy(old(db.slots), db.slots, sender, DurationOf(parts[2..]), None)
              && (forall k :: k in db.slots && k !in old(db.slots) ==> k in reply.created)
    ensures !(reply.SlotsAdded? || reply.AddSlotsFailed?) ==> db.slots == old(db.slots)
  {
    if sender !in adminIds {
      return AddSlotsIgnored;
    }
    var parts := Words(text);
    var parsed := ParseAddSlots(parts);
    match parsed {
      case AddSlotsUsage => return AddSlotsUsageReply;
      case NoTimes => return AddSlotsNoTimes;
      case AddSlotsParsed(req) =>
        var day := parseDate(req.date);
        if day.None? {
          return AddSlotsFailed([]);
        }
        var created, complete := AddSlotsOn(db, sender, day.value, req.times, req.durationMinutes, z);
        reply := if complete then SlotsAdded(created) else AddSlotsFailed(created);
    }
  }

  /** The argument parsing of cmd_delslot: the second word, when it is all digits, is the slot id. */
  function ParseDelSlot(parts: seq<string>): (slotId: Option<int>)
    ensures slotId.Some? <==> |parts| >= 2 && IsDigits(parts[1])
    ensures |parts| >= 2 && IsDigits(parts[1]) ==> slotId == Some(DecimalValue(parts[1]))
    ensures slotId.Some? ==> slotId.value >= 0
  {
    if |parts| < 2 || !IsDigits(parts[1]) then None else Some(DecimalValue(parts[1]))
  }

  /** The id the bot shows for a slot ("ID {slot_id}"), typed back after /delslot, is that slot's id. */
  lemma DelSlotOfShownId(command: string, id: nat)
    ensures ParseDelSlot([command, DecimalText(id)]) == Some(id)
  {
    DecimalTextRoundTrip(id);
  }

  datatype DelSlotReply = Ignored | DelSlotUsage | SlotDeleted(slotId: int) | SlotNotFound(slotId: int) | DelSlotFailed

  /**
   * cmd_delslot: ignored unless the sender is an admin; otherwise the usage reply or the
   * outcome of delete_slot, which also removes the slot's booking. An id beyond SQLite's
   * 64-bit INTEGER makes delete_slot raise: no reply, nothing deleted.
   */
  method CmdDelSlot(db: Database, sender: int, adminIds: seq<int>, text: string) returns (reply: DelSlotReply)
    requires db.Valid()
    modifies db`slots, db`bookings
    ensures db.Valid()
    ensures reply == Ignored <==> sender !in adminIds
    ensures reply == DelSlotUsage <==> sender in adminIds && ParseDelSlot(Words(text)).None?
    ensures reply == DelSlotFailed <==>
              sender in adminIds && ParseDelSlot(Words(text)).Some? && !FitsSqlInteger(ParseDelSlot(Words(text)).value)
    ensures reply.SlotDeleted? || reply.SlotNotFound? ==> Some(reply.slotId) == ParseDelSlot(Words(text))
    ensures reply.SlotDeleted? ==> reply.slotId in old(db.slots)
    ensures reply.SlotNotFound? ==> reply.slotId !in old(db.slots)
    ensures reply.SlotDeleted? || reply.SlotNotFound? ==>
              db.slots == old(db.slots) - {reply.slotId} && !SlotBooked(db.bookings, reply.slotId) &&
              (forall k :: k in db.bookings <==> k in old(db.bookings) && old(db.bookings)[k].slotId != reply.slotId) &&
              forall k :: k in db.bookings ==> db.bookings[k] == old(db.bookings)[k]
    ensures reply.Ignored? || reply.DelSlotUsage? || reply.DelSlotFailed? ==>
              db.slots == old(db.slots) && db.bookings == old(db.bookings)
  {
    if sender !in adminIds {
      return Ignored;
    }
    var slotId := ParseDelSlot(Words(text));
    if slotId.None? {
      return DelSlotUsage;
    }
    if !FitsSqlInteger(slotId.value) {
      return DelSlotFailed;
    }
    var deleted := db.DeleteSlot(slotId.value);
    reply := if deleted != 0 then SlotDeleted(slotId.value) else SlotNotFound(slotId.value);
  }

  /** The bookings table after send attempts for `ids`: exactly the delivered ones are marked sent. */
  function AfterCycle(before: map<int, Booking>, ids: seq<int>, delivered: int -> bool): (after: map<int, Booking>)
    ensures after.Keys == before.Keys
  {
    map k | k in before :: if k in ids && delivered(k) then before[k].(reminderSent := true) else before[k]
  }

  /** One more attempt: a delivered reminder marks its booking, a failed one leaves the table alone. */
  lemma AfterCycleStep(before: map<int, Booking>, ids: seq<int>, x: int, delivered: int -> bool)
    requires x in before
    ensures AfterCycle(before, ids, delivered)[x].(reminderSent := true) == before[x].(reminderSent := true)
    ensures AfterCycle(before, ids + [x], delivered) ==
              if delivered(x) then AfterCycle(before, ids, delivered)[x := before[x].(reminderSent := true)]
              else AfterCycle(before, ids, delivered)
  {
    var now, next := AfterCycle(before, ids, delivered), AfterCycle(before, ids + [x], delivered);
    if delivered(x) {
      assert next == now[x := before[x].(reminderSent := true)];
    } else {
      assert next == now;
    }
  }

  function BookingIds(rs: seq<Reminder>): (ids: seq<int>)
    ensures |ids| == |rs| && forall m :: 0 <= m < |rs| ==> ids[m] == rs[m].bookingId
  {
    seq(|rs|, m requires 0 <= m < |rs| => rs[m].bookingId)
  }

  /** The booking ids of find_bookings_for_reminder's rows are exactly the bookings due at `now`. */
  lemma DueIds(db: Database, rs: seq<Reminder>, now: int)
    requires forall x :: x in rs ==> db.DueAt(x.bookingId, now) && x == db.ReminderOf(x.bookingId)
    requires forall k :: db.DueAt(k, now) ==> db.ReminderOf(k) in rs
    ensures forall k :: k in BookingIds(rs) <==> db.DueAt(k, now)
  {
    var ids := BookingIds(rs);
    forall k ensures k in ids <==> db.DueAt(k, now) {
      if db.DueAt(k, now) {
        var m :| 0 <= m < |rs| && rs[m] == db.ReminderOf(k);
        assert ids[m] == k;
      }
      if k in ids {
        var m :| 0 <= m < |ids| && ids[m] == k;
        assert rs[m] in rs;
      }
    }
  }

  /**
   * The send loop of reminder_worker: one attempt per id, in order; a delivered reminder is
   * marked sent (mark_reminder_sent follows a send that did not raise), a failed one is not,
   * and the loop goes on either way.
   */
  method SendReminders(db: Database, ids: seq<int>, delivered: int -> bool)
    requires db.Valid()
    requires forall m :: 0 <= m < |ids| ==> ids[m] in db.bookings
    modifies db`bookings
    ensures db.Valid()
    ensures db.bookings == AfterCycle(old(db.bookings), ids, delivered)
  {
    ghost var before := db.bookings;
    for i := 0 to |ids|
      invariant db.Valid()
      invariant db.bookings == AfterCycle(before, ids[..i], delivered)
    {
      AfterCycleStep(before, ids[..i], ids[i], delivered);
      assert ids[..i + 1] == ids[..i] + [ids[i]];
      if delivered(ids[i]) {
        db.MarkReminderSent(ids[i]);
      }
    }
    assert ids[..|ids|] == ids;
  }

  /**
   * One cycle of reminder_worker, as it is meant to run: every due booking gets one send
   * attempt; a delivered reminder is marked sent, a failed one is left unmarked, and a failure
   * does not stop the others. An unmarked reminder is still not due at any poll 60 s or more
   * later (Store.DueAtOnePollOnly), so the failed send is not retried.
   */
  method ReminderCycle(db: Database, now: int, delivered: int -> bool) returns (attempted: seq<int>)
    requires db.Valid()
    modifies db`bookings
    ensures db.Valid()
    ensures forall k :: k in attempted <==> old(db.DueAt(k, now))
    ensures forall i, j :: 0 <= i < j < |attempted| ==> attempted[i] != attempted[j]
    ensures db.bookings == AfterCycle(old(db.bookings), attempted, delivered)
    ensures forall k, t :: k in attempted && delivered(k) ==> !db.DueAt(k, t)
    ensures forall k :: k in attempted && !delivered(k) ==> db.DueAt(k, now)
  {
    var candidates := db.FindDueReminders(now);
    attempted := BookingIds(candidates);
    DueIds(db, candidates, now);
    ghost var before := db.bookings;
    SendReminders(db, attempted, delivered);
    forall k | k in attempted && delivered(k) ensures forall t :: !db.DueAt(k, t) {
      assert db.bookings[k].reminderSent;
    }
    forall k | k in attempted && !delivered(k) ensures db.DueAt(k, now) {
      assert db.bookings[k] == before[k];
    }
  }

  /** A row of find_bookings_for_reminder as the tuple it is: five fields. */
  function ReminderFields(c: Reminder): seq<int> {
    [c.bookingId, c.chatId, c.slotId, c.slotUtc, c.hoursBefore]
  }

  /** Unpacking a tuple into four names, as the worker's for-loop header does; None is the ValueError. */
  function UnpackFour(row: seq<int>): Option<(int, int, int, int)> {
    if |row| == 4 then Some((row[0], row[1], row[2], row[3])) else None
  }

  /** No reminder row unpacks into the worker's four names. */
  lemma ReminderRowsDoNotUnpack(c: Reminder)
    ensures UnpackFour(ReminderFields(c)).None?
  {
  }

  /**
   * One cycle of reminder_worker as written: the loop header unpacks each five-field row
   * into four names, so the first due booking raises ValueError before its send; the
   * cycle's outer handler logs it and the cycle ends. Nothing is ever sent or marked, and
   * every due booking stays due.
   */
  method ReminderCycleAsWritten(db: Database, now: int, delivered: int -> bool) returns (attempted: seq<int>)
    requires db.Valid()
    modifies db`bookings
    ensures db.Valid()
    ensures attempted == []
    ensures db.bookings == old(db.bookings)
    ensures forall k :: old(db.DueAt(k, now)) ==> db.DueAt(k, now)
  {
    var candidates := db.FindDueReminders(now);
    attempted := [];
    if candidates != [] {
      var first := UnpackFour(ReminderFields(candidates[0]));
      assert first.None?;
    }
  }
}

=== FILE: config.dfy ===
/**
 * Settings loading (booking_bot/config.py): the admin-id list parser and the
 * defaulting rules of load_settings over an environment map.
 */
module Config {
  import opened Wrappers
  import opened Text

  datatype Settings = Settings(botToken: string, adminIds: seq<int>, timezone: string, databasePath: string)

  datatype ConfigError = MissingBotToken

  const DefaultTimezone := "Europe/Moscow"

  /**
   * The id a comma-separated part yields: None when it is blank once stripped (the
   * `continue` on an empty part) or when int() rejects it (the `continue` on ValueError).
   */
  function PartId(part: string): (r: Option<int>)
    ensures r.Some? ==> Strip(part) != [] && ParseInt(Strip(part)) == r
    ensures Strip(part) != [] && ParseInt(Strip(part)).Some? ==> r == ParseInt(Strip(part))
  {
    var stripped := Strip(part);
    if stripped == [] then None else ParseInt(stripped)
  }

  /** The outcome of every part, position by position. */
  function PartIds(parts: seq<string>): (r: seq<Option<int>>)
    ensures |r| == |parts| && forall j :: 0 <= j < |parts| ==> r[j] == PartId(parts[j])
  {
    seq(|parts|, j requires 0 <= j < |parts| => PartId(parts[j]))
  }

  /** The values of the outcomes that yielded an id, in order. */
  function Present(xs: seq<Option<int>>): (ids: seq<int>)
    decreases |xs|
  {
    if xs == [] then []
    else
      var n := |xs| - 1;
      Present(xs[..n]) + (if xs[n].Some? then [xs[n].value] else [])
  }

  /** The positions of the outcomes that yielded an id, ascending. */
  function PresentPositions(xs: seq<Option<int>>): (ps: seq<int>)
    decreases |xs|
  {
    if xs == [] then []
    else
      var n := |xs| - 1;
      PresentPositions(xs[..n]) + (if xs[n].Some? then [n] else [])
  }

  /** There are as many ids as positions that yielded one, and no more than outcomes. */
  lemma {:induction false} PresentCount(xs: seq<Option<int>>)
    ensures |Present(xs)| == |PresentPositions(xs)| <= |xs|
    decreases |xs|
  {
    if xs != [] {
      PresentCount(xs[..|xs| - 1]);
    }
  }

  /** The positions ascend, lie inside `xs`, and each holds an outcome that yielded an id. */
  lemma {:induction false} PresentPositionsAscend(xs: seq<Option<int>>)
    ensures forall k :: 0 <= k < |PresentPositions(xs)| ==>
      0 <= PresentPositions(xs)[k] < |xs| && xs[PresentPositions(xs)[k]].Some?
    ensures forall a, b :: 0 <= a < b < |PresentPositions(xs)| ==> PresentPositions(xs)[a] < PresentPositions(xs)[b]
    decreases |xs|
  {
    if xs != [] {
      var n := |xs| - 1;
      PresentPositionsAscend(xs[..n]);
      var before := PresentPositions(xs[..n]);
      assert forall k :: 0 <= k < |before| ==> xs[..n][before[k]] == xs[before[k]];
    }
  }

  /** Every outcome that yielded an id has its position listed: nothing valid is dropped. */
  lemma {:induction false} PresentComplete(xs: seq<Option<int>>)
    ensures forall j :: 0 <= j < |xs| && xs[j].Some? ==> j in PresentPositions(xs)
    decreases |xs|
  {
    if xs != [] {
      var n := |xs| - 1;
      var init := xs[..n];
      PresentComplete(init);
      forall j | 0 <= j < |xs| && xs[j].Some? ensures j in PresentPositions(xs) {
        if j < n {
          assert init[j] == xs[j];
          assert j in PresentPositions(init);
        }
      }
    }
  }

  /** The k-th id is the value at the k-th listed position: the ids keep the input order. */
  lemma {:induction false} PresentInOrder(xs: seq<Option<int>>)
    ensures |Present(xs)| == |PresentPositions(xs)|
    ensures forall k :: 0 <= k < |Present(xs)| ==>
      0 <= PresentPositions(xs)[k] < |xs| && xs[PresentPositions(xs)[k]] == Some(Present(xs)[k])
    decreases |xs|
  {
    PresentCount(xs);
    PresentPositionsAscend(xs);
    if xs != [] {
      var n := |xs| - 1;
      PresentInOrder(xs[..n]);
      var before := PresentPositions(xs[..n]);
      assert forall k :: 0 <= k < |before| ==> xs[..n][before[k]] == xs[before[k]];
    }
  }

  /**
   * What _get_admin_ids promises of a non-empty value: every id is int() of a stripped,
   * non-blank part, the ids follow the order of their parts, every part that parses
   * contributes its id, and there are at most as many ids as parts.
   */
  lemma AdminIdsFromParts(parts: seq<string>)
    ensures |Present(PartIds(parts))| == |PresentPositions(PartIds(parts))| <= |parts|
    ensures forall k :: 0 <= k < |Present(PartIds(parts))| ==>
      var j := PresentPositions(PartIds(parts))[k];
      0 <= j < |parts| && Strip(parts[j]) != [] && ParseInt(Strip(parts[j])) == Some(Present(PartIds(parts))[k])
    ensures forall a, b :: 0 <= a < b < |PresentPositions(PartIds(parts))| ==>
      PresentPositions(PartIds(parts))[a] < PresentPositions(PartIds(parts))[b]
    ensures forall j :: 0 <= j < |parts| && Strip(parts[j]) != [] && ParseInt(Strip(parts[j])).Some? ==>
      j in PresentPositions(PartIds(parts))
  {
    var xs := PartIds(parts);
    PresentCount(xs);
    PresentPositionsAscend(xs);
    PresentComplete(xs);
    PresentInOrder(xs);
  }

  /** _get_admin_ids: parse a comma-separated id list, skipping blank and non-integer parts. */
  method AdminIds(envValue: Option<string>) returns (ids: seq<int>)
    ensures envValue == None || envValue == Some("") ==> ids == []
    ensures envValue.Some? && envValue.value != "" ==> ids == Present(PartIds(Split(envValue.value, ',')))
  {
    if envValue == None || envValue.value == "" {
      return [];
    }
    var parts := Split(envValue.value, ',');
    ghost var outcomes := PartIds(parts);
    ids := [];
    for i := 0 to |parts|
      invariant ids == Present(outcomes[..i])
    {
      assert outcomes[..i + 1][..i] == outcomes[..i];
      assert outcomes[i] == PartId(parts[i]);
      var part := Strip(parts[i]);
      if part == [] {
        continue;
      }
      var parsed := ParseInt(part);
      if parsed.None? {
        continue;
      }
      ids := ids + [parsed.value];
    }
    assert outcomes[..|parts|] == outcomes;
  }

  function Lookup(env: map<string, string>, name: string): Option<string> {
    if name in env then Some(env[name]) else None
  }

  /**
   * load_settings over the environment `env`; `defaultDatabasePath` is the absolute path of
   * "bot.db" in the working directory.
   */
  method LoadSettings(env: map<string, string>, defaultDatabasePath: string) returns (r: Result<Settings, ConfigError>)
    ensures r.Err? <==> "BOT_TOKEN" !in env || env["BOT_TOKEN"] == ""
    ensures r.Ok? ==> r.value.botToken == env["BOT_TOKEN"]
    ensures r.Ok? ==> r.value.timezone ==
                      (if "TZ" in env then env["TZ"] else if "TIMEZONE" in env then env["TIMEZONE"] else DefaultTimezone)
    ensures r.Ok? ==> r.value.databasePath ==
                      (if "DATABASE_PATH" in env then env["DATABASE_PATH"] else defaultDatabasePath)
    ensures r.Ok? ==> r.value.adminIds ==
                      (if "ADMIN_IDS" in env && env["ADMIN_IDS"] != "" then Present(PartIds(Split(env["ADMIN_IDS"], ','))) else [])
  {
    var botToken := if "BOT_TOKEN" in env then env["BOT_TOKEN"] else "";
    if botToken == "" {
      return Err(MissingBotToken);
    }
    var adminIds := AdminIds(Lookup(env, "ADMIN_IDS"));
    var fallback := if "TIMEZONE" in env then env["TIMEZONE"] else DefaultTimezone;
    var timezone := if "TZ" in env then env["TZ"] else fallback;
    var databasePath := if "DATABASE_PATH" in env then env["DATABASE_PATH"] else defaultDatabasePath;
    r := Ok(Settings(botToken, adminIds, timezone, databasePath));
  }
}

=== FILE: sorting.dfy ===
/**
 * Ordering helpers shared by the store's ORDER BY clauses and the list sorts of the bot.
 * Sequences are ordered by an integer key; insertion is stable, like Python's list.sort.
 */
module Sorting {

  /** `s` is in non-decreasing order of `key`. */
  predicate SortedBy<T>(s: seq<T>, key: T -> int) {
    forall i, j :: 0 <= i < j < |s| ==> key(s[i]) <= key(s[j])
  }

  /** `s` is in strictly increasing order of `key`. */
  predicate StrictlySortedBy<T>(s: seq<T>, key: T -> int) {
    forall i, j :: 0 <= i < j < |s| ==> key(s[i]) < key(s[j])
  }

  /** No element occurs twice in `s`. */
  predicate Distinct<T(==)>(s: seq<T>) {
    forall i, j :: 0 <= i < j < |s| ==> s[i] != s[j]
  }

  /** Inserts `x` after every element whose key is not greater than its own. */
  function InsertByKey<T>(x: T, s: seq<T>, key: T -> int): (r: seq<T>)
    requires SortedBy(s, key)
    ensures SortedBy(r, key)
    ensures multiset(r) == multiset(s) + multiset{x}
    decreases |s|
  {
    if s == [] || key(x) < key(s[0]) then
      ConsSorted(x, s, key);
      [x] + s
    else
      var tail := InsertByKey(x, s[1..], key);
      assert s == [s[0]] + s[1..];
      LowerBoundKept(s[0], x, s[1..], tail, key);
      ConsSorted(s[0], tail, key);
      [s[0]] + tail
  }

  /** An element no greater than any element of a sorted sequence can go in front of it. */
  lemma ConsSorted<T>(h: T, t: seq<T>, key: T -> int)
    requires SortedBy(t, key)
    requires forall m :: 0 <= m < |t| ==> key(h) <= key(t[m])
    ensures SortedBy([h] + t, key)
  {
    var r := [h] + t;
    forall i, j | 0 <= i < j < |r| ensures key(r[i]) <= key(r[j]) {
      assert r[j] == t[j - 1];
      if i > 0 {
        assert r[i] == t[i - 1];
      }
    }
  }

  /** A lower bound of `x` and of every element of `s` bounds every element of a rearrangement of `s + [x]`. */
  lemma LowerBoundKept<T>(lo: T, x: T, s: seq<T>, t: seq<T>, key: T -> int)
    requires key(lo) <= key(x)
    requires forall k :: 0 <= k < |s| ==> key(lo) <= key(s[k])
    requires multiset(t) == multiset(s) + multiset{x}
    ensures forall m :: 0 <= m < |t| ==> key(lo) <= key(t[m])
  {
    forall m | 0 <= m < |t| ensures key(lo) <= key(t[m]) {
      var y := t[m];
      assert y in multiset(t);
      if y != x {
        assert y in multiset(s);
        var k :| 0 <= k < |s| && s[k] == y;
      }
    }
  }

  /** Inserting a key that is not yet present keeps a strictly sorted sequence strictly sorted. */
  lemma {:induction false} InsertKeepsStrict<T>(x: T, s: seq<T>, key: T -> int)
    requires StrictlySortedBy(s, key)
    requires forall k :: 0 <= k < |s| ==> key(s[k]) != key(x)
    ensures StrictlySortedBy(InsertByKey(x, s, key), key)
    decreases |s|
  {
    if s == [] || key(x) < key(s[0]) {
      StrictCons(x, s, key);
    } else {
      var rest := s[1..];
      assert forall k :: 0 <= k < |rest| ==> rest[k] == s[k + 1];
      InsertKeepsStrict(x, rest, key);
      var tail := InsertByKey(x, rest, key);
      assert InsertByKey(x, s, key) == [s[0]] + tail;
      forall m | 0 <= m < |tail| ensures key(s[0]) < key(tail[m]) {
        var y := tail[m];
        assert y in multiset(tail);
        if y != x {
          assert y in multiset(rest);
          var k :| 0 <= k < |rest| && rest[k] == y;
        }
      }
      StrictCons(s[0], tail, key);
    }
  }

  /** An element below every element of a strictly sorted sequence can go in front of it. */
  lemma StrictCons<T>(h: T, t: seq<T>, key: T -> int)
    requires StrictlySortedBy(t, key)
    requires forall m :: 0 <= m < |t| ==> key(h) < key(t[m])
    ensures StrictlySortedBy([h] + t, key)
  {
    var r := [h] + t;
    forall i, j | 0 <= i < j < |r| ensures key(r[i]) < key(r[j]) {
      assert r[j] == t[j - 1];
      if i > 0 {
        assert r[i] == t[i - 1];
      }
    }
  }

  /** Inserting a new key into a strictly sorted sequence: still strictly sorted, and holding exactly `x` besides. */
  lemma InsertNewKey<T>(x: T, s: seq<T>, key: T -> int)
    requires StrictlySortedBy(s, key)
    requires forall k :: 0 <= k < |s| ==> key(s[k]) != key(x)
    ensures StrictlySortedBy(InsertByKey(x, s, key), key)
    ensures forall y :: y in InsertByKey(x, s, key) <==> y in s || y == x
  {
    InsertKeepsStrict(x, s, key);
    var r := InsertByKey(x, s, key);
    forall y ensures y in r <==> y in s || y == x {
      assert y in r <==> y in multiset(r);
      assert y in s <==> y in multiset(s);
    }
  }

  /** A member of a non-empty set, as a witness for picking one. */
  lemma Member<T>(s: set<T>) returns (x: T)
    requires s != {}
    ensures x in s
  {
    x :| x in s;
  }

  /** The elements of `s` whose key is `k`, in their order in `s`. */
  function WithKey<T>(s: seq<T>, key: T -> int, k: int): (r: seq<T>)
    ensures |r| <= |s|
    decreases |s|
  {
    if s == [] then [] else (if key(s[0]) == k then [s[0]] else []) + WithKey(s[1..], key, k)
  }

  /** Picking the elements with one key distributes over concatenation. */
  lemma {:induction false} WithKeyAppend<T>(a: seq<T>, b: seq<T>, key: T -> int, k: int)
    ensures WithKey(a + b, key, k) == WithKey(a, key, k) + WithKey(b, key, k)
    decreases |a|
  {
    if a != [] {
      WithKeyAppend(a[1..], b, key, k);
      var h := if key(a[0]) == k then [a[0]] else [];
      assert (a + b)[0] == a[0] && (a + b)[1..] == a[1..] + b;
      assert WithKey(a + b, key, k) == h + (WithKey(a[1..], key, k) + WithKey(b, key, k));
    } else {
      assert a + b == b;
    }
  }

  /** No element of `s` has a key at most `k`, so none has key `k`. */
  lemma {:induction false} WithKeyAbove<T>(s: seq<T>, key: T -> int, k: int)
    requires forall m :: 0 <= m < |s| ==> k < key(s[m])
    ensures WithKey(s, key, k) == []
    decreases |s|
  {
    if s != [] {
      WithKeyAbove(s[1..], key, k);
    }
  }

  /** Insertion puts `x` after every element with its key: stability, one element at a time. */
  lemma {:induction false} InsertAfterEqualKeys<T>(x: T, s: seq<T>, key: T -> int, k: int)
    requires SortedBy(s, key)
    ensures WithKey(InsertByKey(x, s, key), key, k) ==
            WithKey(s, key, k) + (if key(x) == k then [x] else [])
    decreases |s|
  {
    var r := InsertByKey(x, s, key);
    if s == [] || key(x) < key(s[0]) {
      assert r == [x] + s;
      InFrontWithKey(x, s, key, k);
    } else {
      var tail := InsertByKey(x, s[1..], key);
      InsertAfterEqualKeys(x, s[1..], key, k);
      assert r == [s[0]] + tail;
      assert s == [s[0]] + s[1..];
      BehindHeadWithKey(s[0], s[1..], tail, if key(x) == k then [x] else [], key, k);
    }
  }

  /** An element put in front of larger keys comes after every element with its own key. */
  lemma InFrontWithKey<T>(x: T, s: seq<T>, key: T -> int, k: int)
    requires SortedBy(s, key)
    requires s == [] || key(x) < key(s[0])
    ensures WithKey([x] + s, key, k) == WithKey(s, key, k) + (if key(x) == k then [x] else [])
  {
    WithKeyCons(x, s, key, k);
    if key(x) == k {
      WithKeyAbove(s, key, k);
    }
  }

  /** Elements added behind a common head are picked behind that head. */
  lemma BehindHeadWithKey<T>(h: T, s: seq<T>, t: seq<T>, extra: seq<T>, key: T -> int, k: int)
    requires WithKey(t, key, k) == WithKey(s, key, k) + extra
    ensures WithKey([h] + t, key, k) == WithKey([h] + s, key, k) + extra
  {
    WithKeyCons(h, t, key, k);
    WithKeyCons(h, s, key, k);
  }

  /** Picking the elements with key `k` from `[h] + t`. */
  lemma WithKeyCons<T>(h: T, t: seq<T>, key: T -> int, k: int)
    ensures WithKey([h] + t, key, k) == (if key(h) == k then [h] else []) + WithKey(t, key, k)
  {
    assert ([h] + t)[0] == h && ([h] + t)[1..] == t;
  }

  /**
   * Sorts `xs` by `key`, keeping every element: the model of list.sort(). The sort is stable:
   * the elements with any one key keep their order in `xs`.
   */
  method SortByKey<T>(xs: seq<T>, key: T -> int) returns (ys: seq<T>)
    ensures SortedBy(ys, key)
    ensures multiset(ys) == multiset(xs)
    ensures forall k :: WithKey(ys, key, k) == WithKey(xs, key, k)
  {
    ys := [];
    for i := 0 to |xs|
      invariant SortedBy(ys, key)
      invariant multiset(ys) == multiset(xs[..i])
      invariant forall k :: WithKey(ys, key, k) == WithKey(xs[..i], key, k)
    {
      assert xs[..i + 1] == xs[..i] + [xs[i]];
      forall k ensures WithKey(InsertByKey(xs[i], ys, key), key, k) == WithKey(xs[..i + 1], key, k) {
        InsertAfterEqualKeys(xs[i], ys, key, k);
        WithKeyAppend(xs[..i], [xs[i]], key, k);
      }
      ys := InsertByKey(xs[i], ys, key);
    }
    assert xs[..|xs|] == xs;
  }

  /** An element that occurs at two positions is counted at least twice. */
  lemma {:induction false} RepeatCountsTwice<T>(s: seq<T>, i: nat, j: nat)
    requires i < j < |s| && s[i] == s[j]
    ensures multiset(s)[s[i]] >= 2
  {
    assert s == s[..i] + [s[i]] + s[i + 1..j] + [s[j]] + s[j + 1..];
  }

  /** Rearranging a sequence without repeats gives a sequence without repeats. */
  lemma {:induction false} DistinctPermutation<T>(a: seq<T>, b: seq<T>)
    requires multiset(a) == multiset(b) && Distinct(a)
    ensures Distinct(b)
  {
    forall i, j | 0 <= i < j < |b| ensures b[i] != b[j] {
      if b[i] == b[j] {
        RepeatCountsTwice(b, i, j);
        var i', j' := FirstTwo(a, b[i]);
      }
    }
  }

  /** Two positions holding `x`, when `x` is counted at least twice. */
  lemma {:induction false} FirstTwo<T>(a: seq<T>, x: T) returns (i: nat, j: nat)
    requires multiset(a)[x] >= 2
    ensures i < j < |a| && a[i] == x && a[j] == x
  {
    assert a != [];
    if a[0] == x {
      assert a == [a[0]] + a[1..];
      assert multiset(a[1..])[x] >= 1;
      assert x in a[1..];
      var k :| 0 <= k < |a[1..]| && a[1..][k] == x;
      i, j := 0, k + 1;
    } else {
      assert a == [a[0]] + a[1..];
      var i', j' := FirstTwo(a[1..], x);
      i, j := i' + 1, j' + 1;
    }
  }

  /** A sorted sequence without repeated keys is strictly sorted. */
  lemma SortedDistinctKeysIsStrict<T>(s: seq<T>, key: T -> int)
    requires SortedBy(s, key)
    requires forall i, j :: 0 <= i < j < |s| ==> key(s[i]) != key(s[j])
    ensures StrictlySortedBy(s, key)
  {
  }
}

=== FILE: store.dfy ===
/**
 * The SQLite store of the bot (booking_bot/db.py), as three in-memory tables keyed by
 * their INTEGER PRIMARY KEY AUTOINCREMENT ids. The schema's constraints are the class
 * invariant: tg_user_id is unique among users, slot_utc is unique among slots, slot_id
 * is unique among bookings (at most one booking per slot), and every booking references
 * an existing user and slot (foreign keys are switched on for every connection).
 * Instants are seconds since the epoch; the ISO text of slot_utc sorts the same way
 * when every value carries the same "+00:00" form.
 */
module Store {
  import opened Wrappers
  import opened Sorting
  import Time

  datatype User = User(id: int, tgUserId: int, chatId: int, fullName: string, phone: Option<string>,
                       isAdmin: int, createdAt: int)

  datatype Slot = Slot(id: int, slotUtc: int, durationMinutes: int, note: Option<string>, createdBy: Option<int>)

  datatype Booking = Booking(id: int, userId: int, slotId: int, createdAt: int, reminderSent: bool, status: string,
                             guestsCount: int, reminderHoursBefore: Option<int>, reminderEnabled: int)

  /** One row of list_bookings: a booking joined with its user and its slot. */
  datatype BookingRow = BookingRow(booking: Booking, user: User, slot: Slot)

  /** One row of find_bookings_for_reminder: (booking_id, chat_id, slot_id, slot_utc, reminder hours). */
  datatype Reminder = Reminder(bookingId: int, chatId: int, slotId: int, slotUtc: int, hoursBefore: int)

  /** Why an INSERT into bookings fails: the UNIQUE slot_id, or a FOREIGN KEY to a missing row. */
  datatype BookingError = SlotAlreadyTaken | MissingReference

  const BookedStatus := "booked"
  const DefaultReminderHours := 2
  const ReminderWindowSeconds := 60
  const SecondsPerHour := 3600
  /** The largest INTEGER SQLite stores; the driver raises OverflowError when binding a larger value. */
  const MaxSqlInteger := 0x7FFF_FFFF_FFFF_FFFF

  /** A Python int the sqlite3 driver can bind as a 64-bit INTEGER parameter. */
  predicate FitsSqlInteger(n: int) {
    -MaxSqlInteger - 1 <= n <= MaxSqlInteger
  }

  function SlotTime(s: Slot): int { s.slotUtc }

  function RowTime(r: BookingRow): int { r.slot.slotUtc }

  // ---- The schema's constraints, over the tables as values.

  predicate UniqueTgUserId(users: map<int, User>) {
    forall a, b :: a in users && b in users && users[a].tgUserId == users[b].tgUserId ==> a == b
  }

  predicate UniqueSlotUtc(slots: map<int, Slot>) {
    forall a, b :: a in slots && b in slots && slots[a].slotUtc == slots[b].slotUtc ==> a == b
  }

  /** UNIQUE(slot_id) on bookings: the reservation invariant. */
  predicate OneBookingPerSlot(bookings: map<int, Booking>) {
    forall a, b :: a in bookings && b in bookings && bookings[a].slotId == bookings[b].slotId ==> a == b
  }

  predicate HasTgUser(users: map<int, User>, tgUserId: int) {
    exists k :: k in users && users[k].tgUserId == tgUserId
  }

  predicate HasSlotAt(slots: map<int, Slot>, slotUtc: int) {
    exists k :: k in slots && slots[k].slotUtc == slotUtc
  }

  /** Some booking references the slot. */
  predicate SlotBooked(bookings: map<int, Booking>, slotId: int) {
    exists k :: k in bookings && bookings[k].slotId == slotId
  }

  /**
   * The date_only filter: the instant lies on the given UTC day (days since the epoch).
   * The source's bounds stop one second short of the next midnight; see InUtcDayAsWritten.
   */
  predicate InUtcDay(t: int, day: int) {
    t / Time.SecondsPerDay == day
  }

  /** The date_only bounds as written: from "DT00:00:00+00:00" up to, excluding, "DT23:59:59+00:00". */
  predicate InUtcDayAsWritten(t: int, day: int) {
    day * Time.SecondsPerDay <= t < day * Time.SecondsPerDay + Time.SecondsPerDay - 1
  }

  /** A day filter holds of every instant when absent. */
  predicate DayFilter(t: int, day: Option<int>) {
    day.None? || InUtcDay(t, day.value)
  }

  /** The UTC day of an instant runs from its midnight up to, excluding, the next midnight. */
  lemma InUtcDayBounds(t: int, day: int)
    ensures InUtcDay(t, day) <==> day * Time.SecondsPerDay <= t < (day + 1) * Time.SecondsPerDay
  {
  }

  /** The last second of a UTC day is on that day, yet the bounds as written leave it out. */
  lemma LastSecondOfDayDropped(day: int)
    ensures InUtcDay(day * Time.SecondsPerDay + Time.SecondsPerDay - 1, day)
    ensures !InUtcDayAsWritten(day * Time.SecondsPerDay + Time.SecondsPerDay - 1, day)
  {
    InUtcDayBounds(day * Time.SecondsPerDay + Time.SecondsPerDay - 1, day);
  }

  /** `reminder_hours_before or 2`: NULL and 0 both mean two hours. */
  function EffectiveHours(hoursBefore: Option<int>): (h: int)
    ensures h != 0
    ensures hoursBefore.None? || hoursBefore.value == 0 ==> h == DefaultReminderHours
    ensures hoursBefore.Some? && hoursBefore.value != 0 ==> h == hoursBefore.value
  {
    if hoursBefore.None? || hoursBefore.value == 0 then DefaultReminderHours else hoursBefore.value
  }

  /** The half-open window [now + h hours, now + h hours + 60 s) in which a slot start makes the reminder due. */
  predicate InReminderWindow(slotUtc: int, now: int, hours: int) {
    now + hours * SecondsPerHour <= slotUtc < now + hours * SecondsPerHour + ReminderWindowSeconds
  }

  /** A booking whose reminder is to be sent at `now`, given the start of its slot. */
  predicate ReminderDue(b: Booking, slotUtc: int, now: int) {
    && !b.reminderSent
    && b.reminderEnabled == 1
    && b.status == BookedStatus
    && InReminderWindow(slotUtc, now, EffectiveHours(b.reminderHoursBefore))
  }

  /** A sent reminder is never due again, whatever the clock says. */
  lemma SentNeverDue(b: Booking, slotUtc: int, now: int)
    requires b.reminderSent
    ensures !ReminderDue(b, slotUtc, now)
  {
  }

  /**
   * A booking is due at one poll only: at any poll 60 s or more earlier or later it is not.
   * The worker sleeps 60 s after each cycle, so a reminder whose send failed is never due again.
   */
  lemma DueAtOnePollOnly(b: Booking, slotUtc: int, now: int, later: int)
    requires later >= now + ReminderWindowSeconds || later <= now - ReminderWindowSeconds
    requires ReminderDue(b, slotUtc, now)
    ensures !ReminderDue(b, slotUtc, later)
  {
  }

  /**
   * The corrected reminder condition: an unsent reminder stays pending from its first due
   * poll until its slot starts, so a failed send is tried again at later polls.
   */
  predicate ReminderPending(b: Booking, slotUtc: int, now: int) {
    && !b.reminderSent
    && b.reminderEnabled == 1
    && b.status == BookedStatus
    && slotUtc - EffectiveHours(b.reminderHoursBefore) * SecondsPerHour - ReminderWindowSeconds < now < slotUtc
  }

  /**
   * With the corrected condition, a reminder due at a poll is still pending at that poll and at
   * every later poll before its slot starts until it is marked sent, and never after.
   */
  lemma PendingRetried(b: Booking, slotUtc: int, now: int, later: int)
    requires EffectiveHours(b.reminderHoursBefore) > 0
    requires ReminderDue(b, slotUtc, now)
    ensures ReminderPending(b, slotUtc, now)
    ensures now <= later < slotUtc ==> ReminderPending(b, slotUtc, later)
    ensures !ReminderPending(b.(reminderSent := true), slotUtc, later)
  {
  }

  class Database {
    var users: map<int, User>
    var slots: map<int, Slot>
    var bookings: map<int, Booking>
    // The AUTOINCREMENT counters: the next id of each table, above every id ever handed out.
    var nextUserId: int
    var nextSlotId: int
    var nextBookingId: int

    /** The schema: keys are the rows' ids, ids are below their counters, and the constraints hold. */
    predicate Valid()
      reads this
    {
      && 0 < nextUserId && 0 < nextSlotId && 0 < nextBookingId
      && (forall k :: k in users ==> users[k].id == k && 0 < k < nextUserId)
      && (forall k :: k in slots ==> slots[k].id == k && 0 < k < nextSlotId)
      && (forall k :: k in bookings ==> bookings[k].id == k && 0 < k < nextBookingId)
      && UniqueTgUserId(users)
      && UniqueSlotUtc(slots)
      && OneBookingPerSlot(bookings)
      && (forall k :: k in bookings ==> bookings[k].userId in users && bookings[k].slotId in slots)
    }

    /** init on a new database file: the three empty tables. */
    constructor Init()
      ensures Valid()
      ensures users == map[] && slots == map[] && bookings == map[]
    {
      users, slots, bookings := map[], map[], map[];
      nextUserId, nextSlotId, nextBookingId := 1, 1, 1;
    }

    /**
     * upsert_user: INSERT ... ON CONFLICT(tg_user_id) DO UPDATE, then SELECT the id.
     * A known tg_user_id keeps its row and id, with chat_id, full_name and is_admin
     * overwritten and phone kept; an unknown one gets a new row without a phone.
     */
    method UpsertUser(tgUserId: int, chatId: int, fullName: string, isAdmin: int, now: int) returns (id: int)
      requires Valid()
      modifies this`users, this`nextUserId
      ensures Valid()
      ensures id in users && users[id].tgUserId == tgUserId
      ensures old(HasTgUser(users, tgUserId)) ==>
                id in old(users) && old(users)[id].tgUserId == tgUserId && nextUserId == old(nextUserId) &&
                users == old(users)[id := old(users)[id].(chatId := chatId, fullName := fullName, isAdmin := isAdmin)]
      ensures !old(HasTgUser(users, tgUserId)) ==>
                id == old(nextUserId) && nextUserId == id + 1 &&
                users == old(users)[id := User(id, tgUserId, chatId, fullName, None, isAdmin, now)]
    {
      if k :| k in users && users[k].tgUserId == tgUserId {
        users := users[k := users[k].(chatId := chatId, fullName := fullName, isAdmin := isAdmin)];
        assert users[k].tgUserId == tgUserId;
      } else {
        var newId := nextUserId;
        assert newId !in users;
        users := users[newId := User(newId, tgUserId, chatId, fullName, None, isAdmin, now)];
        nextUserId := newId + 1;
        assert users[newId].tgUserId == tgUserId;
      }
      id :| id in users && users[id].tgUserId == tgUserId;
    }

    /** set_user_phone: UPDATE users SET phone WHERE tg_user_id; no row changes for an unknown id. */
    method SetUserPhone(tgUserId: int, phone: string)
      requires Valid()
      modifies this`users
      ensures Valid()
      ensures users.Keys == old(users).Keys
      ensures forall k :: k in users ==>
                users[k] == if old(users)[k].tgUserId == tgUserId then old(users)[k].(phone := Some(phone)) else old(users)[k]
    {
      if k :| k in users && users[k].tgUserId == tgUserId {
        users := users[k := users[k].(phone := Some(phone))];
      }
    }

    /** get_user_by_tg: the row with this tg_user_id, if any. */
    method GetUserByTg(tgUserId: int) returns (u: Option<User>)
      requires Valid()
      ensures u.None? <==> !HasTgUser(users, tgUserId)
      ensures u.Some? ==> u.value.id in users && users[u.value.id] == u.value && u.value.tgUserId == tgUserId
    {
      if k :| k in users && users[k].tgUserId == tgUserId {
        u := Some(users[k]);
      } else {
        u := None;
      }
    }

    /**
     * add_slot: INSERT OR IGNORE, then SELECT the id at slot_utc. An instant that already
     * has a slot returns that slot's id and changes nothing, keeping its duration and note.
     */
    method AddSlot(slotUtc: int, durationMinutes: int, note: Option<string>, createdBy: Option<int>) returns (id: int)
      requires Valid()
      modifies this`slots, this`nextSlotId
      ensures Valid()
      ensures id in slots && slots[id].slotUtc == slotUtc
      ensures old(HasSlotAt(slots, slotUtc)) ==> id in old(slots) && slots == old(slots) && nextSlotId == old(nextSlotId)
      ensures !old(HasSlotAt(slots, slotUtc)) ==>
                id == old(nextSlotId) && nextSlotId == id + 1 &&
                slots == old(slots)[id := Slot(id, slotUtc, durationMinutes, note, createdBy)]
    {
      if !HasSlotAt(slots, slotUtc) {
        var newId := nextSlotId;
        assert newId !in slots;
        slots := slots[newId := Slot(newId, slotUtc, durationMinutes, note, createdBy)];
        nextSlotId := newId + 1;
        assert slots[newId].slotUtc == slotUtc;
      }
      id :| id in slots && slots[id].slotUtc == slotUtc;
    }

    /**
     * delete_slot: DELETE FROM slots WHERE id, returning the row count. The ON DELETE
     * CASCADE removes the booking of the slot; every other row stays as it was.
     */
    method DeleteSlot(slotId: int) returns (count: int)
      requires Valid()
      modifies this`slots, this`bookings
      ensures Valid()
      ensures count == if slotId in old(slots) then 1 else 0
      ensures slots == old(slots) - {slotId}
      ensures !SlotBooked(bookings, slotId)
      ensures forall k :: k in bookings <==> k in old(bookings) && old(bookings)[k].slotId != slotId
      ensures forall k :: k in bookings ==> bookings[k] == old(bookings)[k]
    {
      count := if slotId in slots then 1 else 0;
      slots := slots - {slotId};
      bookings := map k | k in bookings && bookings[k].slotId != slotId :: bookings[k];
    }

    /** update_slot_note: UPDATE slots SET note WHERE id, returning whether a row changed. */
    method UpdateSlotNote(slotId: int, note: string) returns (updated: bool)
      requires Valid()
      modifies this`slots
      ensures Valid()
      ensures updated <==> slotId in old(slots)
      ensures slots == if updated then old(slots)[slotId := old(slots)[slotId].(note := Some(note))] else old(slots)
    {
      updated := slotId in slots;
      if updated {
        slots := slots[slotId := slots[slotId].(note := Some(note))];
      }
    }

    /** A stored slot that no booking references. */
    predicate IsFree(k: int)
      reads this
    {
      k in slots && !SlotBooked(bookings, k)
    }

    /** A stored slot passes the WHERE clause of a slot listing. */
    predicate SlotListed(s: Slot, freeOnly: bool, since: Option<int>, day: Option<int>)
      reads this
    {
      && s.id in slots && slots[s.id] == s
      && (freeOnly ==> !SlotBooked(bookings, s.id))
      && (since.None? || s.slotUtc >= since.value)
      && DayFilter(s.slotUtc, day)
    }

    /** The SELECT ... ORDER BY slot_utc ASC shared by the slot listings. */
    method SelectSlots(freeOnly: bool, since: Option<int>, day: Option<int>) returns (r: seq<Slot>)
      requires Valid()
      ensures forall s :: s in r <==> SlotListed(s, freeOnly, since, day)
      ensures StrictlySortedBy(r, SlotTime)
    {
      r := [];
      var todo := slots.Keys;
      while todo != {}
        invariant todo <= slots.Keys
        invariant StrictlySortedBy(r, SlotTime)
        invariant forall s :: s in r <==> SlotListed(s, freeOnly, since, day) && s.id !in todo
      {
        ghost var some := Member(todo);  // a witness that some k is in `todo`, for the choice below
        var k :| k in todo;
        var s := slots[k];
        if SlotListed(s, freeOnly, since, day) {
          forall m | 0 <= m < |r| ensures SlotTime(r[m]) != SlotTime(s) {
            assert r[m] in r;
          }
          InsertNewKey(s, r, SlotTime);
          r := InsertByKey(s, r, SlotTime);
        }
        todo := todo - {k};
      }
    }

    /**
     * list_free_slots: the slots no booking references, from `since` on when given, on the
     * UTC day `day` when given, in ascending slot_utc order.
     */
    method ListFreeSlots(since: Option<int>, day: Option<int>) returns (r: seq<Slot>)
      requires Valid()
      ensures forall s :: s in r <==>
                s.id in slots && slots[s.id] == s && !SlotBooked(bookings, s.id) &&
                (since.None? || s.slotUtc >= since.value) && DayFilter(s.slotUtc, day)
      ensures StrictlySortedBy(r, SlotTime)
    {
      r := SelectSlots(true, since, day);
    }

    /** list_slots: every slot, on the UTC day `day` when given, in ascending slot_utc order. */
    method ListSlots(day: Option<int>) returns (r: seq<Slot>)
      requires Valid()
      ensures forall s :: s in r <==> s.id in slots && slots[s.id] == s && DayFilter(s.slotUtc, day)
      ensures StrictlySortedBy(r, SlotTime)
    {
      r := SelectSlots(false, None, day);
    }

    /**
     * create_booking: INSERT INTO bookings with reminder_sent 0 and status 'booked', then
     * SELECT its id. A slot that already has a booking violates UNIQUE(slot_id); a missing
     * user or slot violates a foreign key; either way the tables are left as they were.
     */
    method CreateBooking(userId: int, slotId: int, guestsCount: int, reminderHoursBefore: Option<int>,
                         reminderEnabled: int, now: int)
      returns (r: Result<int, BookingError>)
      requires Valid()
      modifies this`bookings, this`nextBookingId
      ensures Valid()
      ensures r.Ok? <==> userId in old(users) && slotId in old(slots) && !old(SlotBooked(bookings, slotId))
      ensures old(SlotBooked(bookings, slotId)) ==> r == Err(SlotAlreadyTaken)
      ensures r.Err? ==> bookings == old(bookings) && nextBookingId == old(nextBookingId)
      ensures r.Ok? ==>
                r.value == old(nextBookingId) && r.value !in old(bookings) && nextBookingId == r.value + 1 &&
                bookings == old(bookings)[r.value := Booking(r.value, userId, slotId, now, false, BookedStatus,
                                                             guestsCount, reminderHoursBefore, reminderEnabled)]
    {
      if SlotBooked(bookings, slotId) {
        return Err(SlotAlreadyTaken);
      }
      if userId !in users || slotId !in slots {
        return Err(MissingReference);
      }
      var newId := nextBookingId;
      assert newId !in bookings;
      bookings := bookings[newId := Booking(newId, userId, slotId, now, false, BookedStatus,
                                            guestsCount, reminderHoursBefore, reminderEnabled)];
      nextBookingId := newId + 1;
      assert bookings[newId].userId == userId && bookings[newId].slotId == slotId;
      var id :| id in bookings && bookings[id].userId == userId && bookings[id].slotId == slotId;
      r := Ok(id);
    }

    /** A booking row passes the INNER JOIN with its user and its slot. */
    predicate Joined(k: int)
      reads this
    {
      k in bookings && bookings[k].userId in users && bookings[k].slotId in slots
    }

    function RowOf(k: int): BookingRow
      reads this
      requires Joined(k)
    {
      BookingRow(bookings[k], users[bookings[k].userId], slots[bookings[k].slotId])
    }

    /** The row of a stored booking, joined with its user and slot, passing the day filter. */
    predicate RowListed(row: BookingRow, day: Option<int>)
      reads this
    {
      Joined(row.booking.id) && row == RowOf(row.booking.id) && DayFilter(row.slot.slotUtc, day)
    }

    /** Two different joined rows have different slot instants: one booking per slot, one slot per instant. */
    lemma DistinctRowsDistinctTimes(a: BookingRow, b: BookingRow)
      requires Valid()
      requires Joined(a.booking.id) && a == RowOf(a.booking.id)
      requires Joined(b.booking.id) && b == RowOf(b.booking.id)
      requires a != b
      ensures RowTime(a) != RowTime(b)
    {
    }

    /**
     * list_bookings: every booking joined with its user and slot, on the UTC day `day`
     * when given, in ascending slot_utc order; one row per booking.
     */
    method ListBookings(day: Option<int>) returns (rows: seq<BookingRow>)
      requires Valid()
      ensures forall row :: row in rows <==> RowListed(row, day)
      ensures StrictlySortedBy(rows, RowTime)
    {
      rows := [];
      var todo := bookings.Keys;
      while todo != {}
        invariant todo <= bookings.Keys
        invariant StrictlySortedBy(rows, RowTime)
        invariant forall row :: row in rows <==> row.booking.id !in todo && RowListed(row, day)
      {
        ghost var some := Member(todo);  // a witness that some k is in `todo`, for the choice below
        var k :| k in todo;
        var row := RowOf(k);
        if DayFilter(row.slot.slotUtc, day) {
          forall m | 0 <= m < |rows| ensures RowTime(rows[m]) != RowTime(row) {
            assert rows[m] in rows;
            DistinctRowsDistinctTimes(rows[m], row);
          }
          InsertNewKey(row, rows, RowTime);
          rows := InsertByKey(row, rows, RowTime);
        }
        todo := todo - {k};
      }
    }

    /** mark_reminder_sent: sets reminder_sent of that booking only; marking twice changes nothing more. */
    method MarkReminderSent(bookingId: int)
      requires Valid()
      modifies this`bookings
      ensures Valid()
      ensures bookings == if bookingId in old(bookings)
                          then old(bookings)[bookingId := old(bookings)[bookingId].(reminderSent := true)]
                          else old(bookings)
      ensures old(bookingId in bookings && bookings[bookingId].reminderSent) ==> bookings == old(bookings)
    {
      if bookingId in bookings {
        bookings := bookings[bookingId := bookings[bookingId].(reminderSent := true)];
      }
    }

    /** The booking's reminder is due at `now` (it passes the join and the filters of find_bookings_for_reminder). */
    predicate DueAt(k: int, now: int)
      reads this
    {
      Joined(k) && ReminderDue(bookings[k], slots[bookings[k].slotId].slotUtc, now)
    }

    function ReminderOf(k: int): Reminder
      reads this
      requires Joined(k)
    {
      Reminder(k, users[bookings[k].userId].chatId, bookings[k].slotId, slots[bookings[k].slotId].slotUtc,
               EffectiveHours(bookings[k].reminderHoursBefore))
    }

    /**
     * find_bookings_for_reminder: exactly the unsent, enabled, 'booked' bookings whose slot
     * starts in [now + h hours, now + h hours + 60 s), h being reminder_hours_before or 2;
     * each at most once.
     */
    method FindDueReminders(now: int) returns (r: seq<Reminder>)
      requires Valid()
      ensures forall x :: x in r ==> DueAt(x.bookingId, now) && x == ReminderOf(x.bookingId)
      ensures forall k :: DueAt(k, now) ==> ReminderOf(k) in r
      ensures forall i, j :: 0 <= i < j < |r| ==> r[i].bookingId != r[j].bookingId
    {
      r := [];
      var todo := bookings.Keys;
      while todo != {}
        invariant todo <= bookings.Keys
        invariant forall x :: x in r ==> x.bookingId !in todo && DueAt(x.bookingId, now) && x == ReminderOf(x.bookingId)
        invariant forall k :: k !in todo && DueAt(k, now) ==> ReminderOf(k) in r
        invariant forall i, j :: 0 <= i < j < |r| ==> r[i].bookingId != r[j].bookingId
      {
        ghost var some := Member(todo);  // a witness that some k is in `todo`, for the choice below
        var k :| k in todo;
        var b := bookings[k];
        if !b.reminderSent && b.reminderEnabled == 1 && b.status == BookedStatus {
          var hours := EffectiveHours(b.reminderHoursBefore);
          var lower := now + hours * SecondsPerHour;
          var upper := lower + ReminderWindowSeconds;
          var slotTime := slots[b.slotId].slotUtc;
          if lower <= slotTime < upper {
            forall i | 0 <= i < |r| ensures r[i].bookingId != k {
              assert r[i] in r;
            }
            r := r + [Reminder(k, users[b.userId].chatId, b.slotId, slotTime, hours)];
          }
        }
        todo := todo - {k};
      }
    }
  }
}

=== FILE: text.dfy ===
/**
 * The few Python string operations the bot relies on: str.strip(), str.split(","),
 * str.split() on whitespace, " ".join, str.isdigit() and int() on decimal text.
 * Only ASCII whitespace and ASCII digits are modelled.
 */
module Text {
  import opened Wrappers

  /** ASCII characters that Python's str.split() and str.strip() treat as whitespace. */
  predicate IsSpace(c: char) {
    c == ' ' || ('\t' <= c <= '\r') || ('\U{1C}' <= c <= '\U{1F}')
  }

  predicate NoSpace(s: string) {
    forall i :: 0 <= i < |s| ==> !IsSpace(s[i])
  }

  predicate AllSpace(s: string) {
    forall i :: 0 <= i < |s| ==> IsSpace(s[i])
  }

  predicate IsDigit(c: char) {
    '0' <= c <= '9'
  }

  /** str.isdigit(): non-empty and made of digits only. */
  predicate IsDigits(s: string) {
    s != [] && forall i :: 0 <= i < |s| ==> IsDigit(s[i])
  }

  /** The value of a string of decimal digits. */
  function DecimalValue(s: string): (n: nat)
    requires forall i :: 0 <= i < |s| ==> IsDigit(s[i])
    decreases |s|
  {
    if s == [] then 0
    else
      assert IsDigit(s[|s| - 1]);
      10 * DecimalValue(s[..|s| - 1]) + (s[|s| - 1] as int - '0' as int)
  }

  /** The decimal text of a natural number, as str(n) writes it: no sign, no leading zero. */
  function DecimalText(n: nat): (s: string)
    ensures IsDigits(s)
    ensures |s| > 1 ==> s[0] != '0'
    decreases n
  {
    var last := [('0' as int + n % 10) as char];
    if n < 10 then last else DecimalText(n / 10) + last
  }

  /** Reading back the decimal text of a number gives the number. */
  lemma {:induction false} DecimalTextRoundTrip(n: nat)
    ensures DecimalValue(DecimalText(n)) == n
    decreases n
  {
    var s := DecimalText(n);
    if n >= 10 {
      DecimalTextRoundTrip(n / 10);
      assert s[..|s| - 1] == DecimalText(n / 10);
    }
  }

  /** int() on already stripped text: an optional sign followed by decimal digits; None stands for ValueError. */
  function ParseInt(s: string): (r: Option<int>)
    ensures r.Some? <==> IsDigits(s) || (|s| > 1 && (s[0] == '-' || s[0] == '+') && IsDigits(s[1..]))
    ensures r.Some? && s[0] != '-' ==> r.value >= 0
  {
    if IsDigits(s) then Some(DecimalValue(s) as int)
    else if |s| > 1 && s[0] == '-' && IsDigits(s[1..]) then Some(0 - DecimalValue(s[1..]) as int)
    else if |s| > 1 && s[0] == '+' && IsDigits(s[1..]) then Some(DecimalValue(s[1..]))
    else None
  }

  /** The value int() gives for digits, with no sign, a '-' or a '+' in front. */
  lemma ParseIntValue(digits: string)
    requires IsDigits(digits)
    ensures ParseInt(digits) == Some(DecimalValue(digits) as int)
    ensures ParseInt("-" + digits) == Some(0 - DecimalValue(digits) as int)
    ensures ParseInt("+" + digits) == Some(DecimalValue(digits) as int)
  {
    assert ("-" + digits)[1..] == digits && !IsDigit(("-" + digits)[0]);
    assert ("+" + digits)[1..] == digits && !IsDigit(("+" + digits)[0]);
  }

  /** int() reads back the decimal text of any integer, with a '-' in front of a negative one. */
  lemma {:induction false} ParseIntRoundTrip(n: int)
    ensures ParseInt(if n < 0 then "-" + DecimalText(-n) else DecimalText(n)) == Some(n)
  {
    if n < 0 {
      var t := DecimalText(-n);
      DecimalTextRoundTrip(-n);
      ParseIntValue(t);
    } else {
      DecimalTextRoundTrip(n);
    }
  }

  /** str.lstrip(). */
  function StripStart(s: string): (r: string)
    ensures r == [] || !IsSpace(r[0])
    ensures |r| <= |s| && r == s[|s| - |r|..]
    ensures AllSpace(s[..|s| - |r|])
    decreases |s|
  {
    if s != [] && IsSpace(s[0]) then
      var r := StripStart(s[1..]);
      assert s[1..][|s| - 1 - |r|..] == s[|s| - |r|..];
      assert s[..|s| - |r|] == [s[0]] + s[1..][..|s| - 1 - |r|];
      r
    else s
  }

  /** str.rstrip(). */
  function StripEnd(s: string): (r: string)
    ensures r == [] || !IsSpace(r[|r| - 1])
    ensures |r| <= |s| && r == s[..|r|]
    ensures AllSpace(s[|r|..])
    decreases |s|
  {
    if s != [] && IsSpace(s[|s| - 1]) then
      var r := StripEnd(s[..|s| - 1]);
      assert s[..|s| - 1][..|r|] == s[..|r|];
      assert s[|r|..] == s[..|s| - 1][|r|..] + [s[|s| - 1]];
      r
    else s
  }

  /** str.strip(): lstrip, then rstrip. */
  function Strip(s: string): (r: string)
    ensures r == [] || (!IsSpace(r[0]) && !IsSpace(r[|r| - 1]))
  {
    var t := StripStart(s);
    var r := StripEnd(t);
    assert r != [] ==> r[0] == t[0];
    r
  }

  /** What str.strip() keeps is a piece of `s` with only whitespace before and after it. */
  lemma StripBetween(s: string)
    ensures exists i :: 0 <= i <= |s| - |Strip(s)| && Strip(s) == s[i..i + |Strip(s)|] &&
                        AllSpace(s[..i]) && AllSpace(s[i + |Strip(s)|..])
  {
    var t := StripStart(s);
    var r := StripEnd(t);
    var i := |s| - |t|;
    assert Strip(s) == r;
    assert t == s[i..] && r == t[..|r|];
    assert r == s[i..i + |r|];
    assert s[i + |r|..] == t[|r|..];
    assert AllSpace(s[..i]) && AllSpace(s[i + |r|..]);
  }

  /** str.split(sep): the pieces between occurrences of `sep`, empty pieces included. */
  function Split(s: string, sep: char): (parts: seq<string>)
    ensures |parts| >= 1
    ensures forall k :: 0 <= k < |parts| ==> sep !in parts[k]
    decreases |s|
  {
    if s == [] then [[]]
    else
      var rest := Split(s[1..], sep);
      if s[0] == sep then [[]] + rest
      else [[s[0]] + rest[0]] + rest[1..]
  }

  /** sep.join(parts). */
  function Join(parts: seq<string>, sep: char): (s: string)
    requires |parts| >= 1
    decreases |parts|
  {
    if |parts| == 1 then parts[0] else parts[0] + [sep] + Join(parts[1..], sep)
  }

  /** Splitting loses nothing: joining the pieces with the separator gives the text back. */
  lemma {:induction false} SplitJoin(s: string, sep: char)
    ensures Join(Split(s, sep), sep) == s
    decreases |s|
  {
    if s != [] {
      SplitJoin(s[1..], sep);
      var rest := Split(s[1..], sep);
      if s[0] != sep {
        if |rest| == 1 {
        } else {
          assert ([s[0]] + rest[0]) + [sep] + Join(rest[1..], sep) == [s[0]] + (rest[0] + [sep] + Join(rest[1..], sep));
        }
      }
      assert s == [s[0]] + s[1..];
    }
  }

  /** The longest prefix of `s` without whitespace. */
  function LeadingWord(s: string): (w: string)
    ensures |w| <= |s| && w == s[..|w|] && NoSpace(w)
    ensures |w| < |s| ==> IsSpace(s[|w|])
    decreases |s|
  {
    if s == [] || IsSpace(s[0]) then [] else [s[0]] + LeadingWord(s[1..])
  }

  /** str.split() without arguments: the maximal runs of non-whitespace characters. */
  function Words(s: string): (ws: seq<string>)
    ensures forall k :: 0 <= k < |ws| ==> ws[k] != [] && NoSpace(ws[k])
    decreases |s|
  {
    if s == [] then []
    else if IsSpace(s[0]) then Words(s[1..])
    else
      var w := LeadingWord(s);
      [w] + Words(s[|w|..])
  }

  /** The whitespace runs of `s`: before the first word, between words, and after the last. */
  function Gaps(s: string): (gs: seq<string>)
    ensures |gs| == |Words(s)| + 1
    decreases |s|
  {
    if s == [] then [[]]
    else if IsSpace(s[0]) then
      var g := Gaps(s[1..]);
      [[s[0]] + g[0]] + g[1..]
    else
      [[]] + Gaps(s[|LeadingWord(s)|..])
  }

  /** gs[0] + ws[0] + gs[1] + ... + ws[n - 1] + gs[n]. */
  function Interleave(gs: seq<string>, ws: seq<string>): string
    requires |gs| == |ws| + 1
    decreases |ws|
  {
    if ws == [] then gs[0] else gs[0] + ws[0] + Interleave(gs[1..], ws[1..])
  }

  /** `s` is the words `ws` interleaved with the whitespace runs `gs`, non-empty between two words. */
  predicate Interleaves(gs: seq<string>, ws: seq<string>, s: string) {
    && |gs| == |ws| + 1
    && (forall k :: 0 <= k < |gs| ==> AllSpace(gs[k]))
    && (forall k :: 0 < k < |ws| ==> gs[k] != [])
    && Interleave(gs, ws) == s
  }

  /**
   * str.split() keeps every non-whitespace character: the text is its words interleaved with
   * whitespace runs, and the runs between two words are not empty, so each word is a maximal run.
   */
  lemma WordsCoverText(s: string)
    ensures forall k :: 0 <= k < |Gaps(s)| ==> AllSpace(Gaps(s)[k])
    ensures forall k :: 0 < k < |Words(s)| ==> Gaps(s)[k] != []
    ensures Interleave(Gaps(s), Words(s)) == s
  {
    WordsInterleave(s);
  }

  /** The induction behind WordsCoverText. */
  lemma {:induction false} WordsInterleave(s: string)
    ensures Interleaves(Gaps(s), Words(s), s)
    decreases |s|
  {
    if s != [] && IsSpace(s[0]) {
      var t := s[1..];
      WordsInterleave(t);
      assert Gaps(s) == [[s[0]] + Gaps(t)[0]] + Gaps(t)[1..];
      assert Words(s) == Words(t);
      SpaceBeforeWords(s[0], Gaps(t), Words(t), t);
      assert s == [s[0]] + t;
    } else if s != [] {
      var w := LeadingWord(s);
      var t := s[|w|..];
      WordsInterleave(t);
      assert Gaps(s) == [[]] + Gaps(t);
      assert Words(s) == [w] + Words(t);
      if t != [] {
        assert IsSpace(t[0]);
        assert Gaps(t)[0] == [t[0]] + Gaps(t[1..])[0];
      } else {
        assert Words(t) == [];
      }
      WordBeforeGaps(w, Gaps(t), Words(t), t);
      assert s == w + t;
    }
  }

  /** A whitespace character in front joins the first run. */
  lemma SpaceBeforeWords(c: char, gs: seq<string>, ws: seq<string>, t: string)
    requires IsSpace(c) && Interleaves(gs, ws, t)
    ensures Interleaves([[c] + gs[0]] + gs[1..], ws, [c] + t)
  {
    var hs := [[c] + gs[0]] + gs[1..];
    assert AllSpace([c] + gs[0]);
    forall k | 0 <= k < |hs| ensures AllSpace(hs[k]) {
      if k > 0 {
        assert hs[k] == gs[k];
      }
    }
    if ws == [] {
      assert Interleave(hs, ws) == [c] + gs[0];
    } else {
      assert Interleave(gs, ws) == gs[0] + ws[0] + Interleave(gs[1..], ws[1..]);
      assert hs[1..] == gs[1..];
      assert Interleave(hs, ws) == ([c] + gs[0]) + ws[0] + Interleave(gs[1..], ws[1..]);
    }
  }

  /** A word in front comes after an empty run, and before a non-empty one unless it ends the text. */
  lemma WordBeforeGaps(w: string, gs: seq<string>, ws: seq<string>, t: string)
    requires Interleaves(gs, ws, t)
    requires ws != [] ==> gs[0] != []
    ensures Interleaves([[]] + gs, [w] + ws, w + t)
  {
    var hs := [[]] + gs;
    forall k | 0 <= k < |hs| ensures AllSpace(hs[k]) {
      if k > 0 {
        assert hs[k] == gs[k - 1];
      }
    }
    forall k | 0 < k < |[w] + ws| ensures hs[k] != [] {
      assert hs[k] == gs[k - 1];
    }
    assert hs[1..] == gs && ([w] + ws)[1..] == ws;
    assert Interleave(hs, [w] + ws) == [] + w + t;
  }

  /** " ".join(words): joining whitespace-free words adds no whitespace but the single spaces. */
  function JoinWords(ws: seq<string>): (s: string)
    ensures (forall k :: 0 <= k < |ws| ==> NoSpace(ws[k])) ==>
              forall i :: 0 <= i < |s| && IsSpace(s[i]) ==> s[i] == ' '
    decreases |ws|
  {
    if ws == [] then [] else if |ws| == 1 then ws[0] else ws[0] + " " + JoinWords(ws[1..])
  }

  /** Joining words with single spaces and splitting on whitespace gives the words back. */
  lemma {:induction false} WordsJoinWords(ws: seq<string>)
    requires forall k :: 0 <= k < |ws| ==> ws[k] != [] && NoSpace(ws[k])
    ensures Words(JoinWords(ws)) == ws
    decreases |ws|
  {
    if ws != [] {
      var w := ws[0];
      var s := JoinWords(ws);
      if |ws| == 1 {
        LeadingWordOf(w, []);
        assert w + [] == w == s;
        assert s[|w|..] == [];
      } else {
        var rest := " " + JoinWords(ws[1..]);
        assert s == w + rest;
        LeadingWordOf(w, rest);
        assert s[|w|..] == rest;
        WordsJoinWords(ws[1..]);
        assert Words(rest) == Words(rest[1..]);
        assert rest[1..] == JoinWords(ws[1..]);
      }
    }
  }

  /** The leading word of a word followed by nothing or by whitespace is that word. */
  lemma {:induction false} LeadingWordOf(w: string, rest: string)
    requires w != [] && NoSpace(w)
    requires rest == [] || IsSpace(rest[0])
    ensures LeadingWord(w + rest) == w
    decreases |w|
  {
    assert (w + rest)[0] == w[0];
    if |w| > 1 {
      LeadingWordOf(w[1..], rest);
      assert (w + rest)[1..] == w[1..] + rest;
    } else {
      assert (w + rest)[1..] == rest;
    }
  }
}

=== FILE: time.dfy ===
/**
 * Local time and UTC (booking_bot/utils.py). Instants are whole seconds since
 * 1970-01-01T00:00:00Z. A zone is a fixed offset from UTC in minutes. A local calendar
 * date is a day number (days since 1970-01-01), which orders dates exactly as their
 * zero-padded "YYYY-MM-DD" text does; a local clock reading is a minute of the day,
 * shown as an "HH:MM" label.
 */
module Time {
  import opened Wrappers
  import opened Text
  import opened Sorting

  const SecondsPerMinute := 60
  const MinutesPerDay := 1440
  const SecondsPerDay := 86400

  /** A zone with a fixed UTC offset, e.g. Zone(180) for UTC+03:00. */
  datatype Zone = Zone(offsetMinutes: int)

  /** A local wall-clock reading: a calendar day and a minute of that day. */
  datatype WallClock = WallClock(day: int, minute: int)

  predicate IsWallClock(l: WallClock) {
    0 <= l.minute < MinutesPerDay
  }

  /** The UTC instant at which the zone's clocks show `l`. */
  function LocalToUtc(l: WallClock, z: Zone): int {
    l.day * SecondsPerDay + (l.minute - z.offsetMinutes) * SecondsPerMinute
  }

  /** The zone's wall clock at instant `t`, truncated to the minute. */
  function UtcToLocal(t: int, z: Zone): (l: WallClock)
    ensures IsWallClock(l)
    ensures LocalToUtc(l, z) <= t < LocalToUtc(l, z) + SecondsPerMinute
  {
    var shifted := t + z.offsetMinutes * SecondsPerMinute;
    var l := WallClock(shifted / SecondsPerDay, (shifted % SecondsPerDay) / SecondsPerMinute);
    assert shifted == l.day * SecondsPerDay + shifted % SecondsPerDay;
    assert shifted % SecondsPerDay == l.minute * SecondsPerMinute + (shifted % SecondsPerDay) % SecondsPerMinute;
    l
  }

  /** The local calendar date of instant `t`. */
  function LocalDate(t: int, z: Zone): int {
    UtcToLocal(t, z).day
  }

  /** Only one wall-clock reading places `t` inside its minute. */
  lemma {:induction false} WallClockUnique(t: int, z: Zone, l: WallClock)
    requires IsWallClock(l)
    requires LocalToUtc(l, z) <= t < LocalToUtc(l, z) + SecondsPerMinute
    ensures UtcToLocal(t, z) == l
  {
    var m := UtcToLocal(t, z);
    var a := l.day * MinutesPerDay + l.minute;
    var b := m.day * MinutesPerDay + m.minute;
    assert a * 60 <= t + z.offsetMinutes * 60 < a * 60 + 60;
    assert b * 60 <= t + z.offsetMinutes * 60 < b * 60 + 60;
    assert a == b;
  }

  /** utc_iso_to_local_str(local_to_utc_iso(l)) gives back the wall-clock reading `l`. */
  lemma {:induction false} LocalUtcRoundTrip(l: WallClock, z: Zone)
    requires IsWallClock(l)
    ensures UtcToLocal(LocalToUtc(l, z), z) == l
  {
    WallClockUnique(LocalToUtc(l, z), z, l);
  }

  /** An instant falls on local date `d` exactly when it lies between local midnight of `d` and of the next day. */
  lemma {:induction false} LocalDateBounds(t: int, z: Zone, d: int)
    ensures LocalDate(t, z) == d <==>
      LocalToUtc(WallClock(d, 0), z) <= t < LocalToUtc(WallClock(d + 1, 0), z)
  {
    var l := UtcToLocal(t, z);
    if l.day < d {
      assert LocalToUtc(l, z) + SecondsPerMinute <= LocalToUtc(WallClock(d, 0), z);
    } else if l.day > d {
      assert LocalToUtc(WallClock(d + 1, 0), z) <= LocalToUtc(l, z);
    }
  }

  /** 2024-01-01T23:30:00Z (day 19723 in UTC) falls on 2024-01-02 (day 19724) at UTC+03:00. */
  lemma NextLocalDayExample()
    ensures 1704151800 / SecondsPerDay == 19723
    ensures UtcToLocal(1704151800, Zone(180)) == WallClock(19724, 150)
  {
    WallClockUnique(1704151800, Zone(180), WallClock(19724, 150));
  }

  function Digit(n: int): (c: char)
    requires 0 <= n < 10
    ensures IsDigit(c)
  {
    ('0' as int + n) as char
  }

  /** strftime("%H:%M") of a minute of the day. */
  function FormatClock(minute: int): (shown: string)
    requires 0 <= minute < MinutesPerDay
    ensures |shown| == 5 && shown[2] == ':'
  {
    var h, m := minute / 60, minute % 60;
    [Digit(h / 10), Digit(h % 10), ':', Digit(m / 10), Digit(m % 10)]
  }

  /** The "%H:%M" half of strptime: two-digit hour below 24, colon, two-digit minute below 60. */
  function ParseClock(s: string): (r: Option<int>)
    ensures r.Some? ==> 0 <= r.value < MinutesPerDay
  {
    if |s| == 5 && s[2] == ':' && IsDigit(s[0]) && IsDigit(s[1]) && IsDigit(s[3]) && IsDigit(s[4]) then
      var h := DecimalValue(s[..2]);
      var m := DecimalValue(s[3..]);
      if h < 24 && m < 60 then Some(h * 60 + m) else None
    else None
  }

  /** The value of a two-digit string. */
  lemma TwoDigits(s: string)
    requires |s| == 2 && IsDigit(s[0]) && IsDigit(s[1])
    ensures DecimalValue(s) == 10 * (s[0] as int - '0' as int) + (s[1] as int - '0' as int)
  {
    assert s[..|s| - 1] == [s[0]];
    assert [s[0]][..0] == [];
    assert DecimalValue([s[0]]) == s[0] as int - '0' as int;
  }

  /** Formatting a minute and parsing the label gives the minute back. */
  lemma ClockRoundTrip(minute: int)
    requires 0 <= minute < MinutesPerDay
    ensures ParseClock(FormatClock(minute)) == Some(minute)
  {
    var s := FormatClock(minute);
    TwoDigits(s[..2]);
    TwoDigits(s[3..]);
  }

  /** A label that parses is the canonical label of the minute it parses to. */
  lemma ClockLabelCanonical(s: string)
    requires ParseClock(s).Some?
    ensures FormatClock(ParseClock(s).value) == s
  {
    TwoDigits(s[..2]);
    TwoDigits(s[3..]);
    var h, m := DecimalValue(s[..2]), DecimalValue(s[3..]);
    var t := FormatClock(h * 60 + m);
    assert (h * 60 + m) / 60 == h && (h * 60 + m) % 60 == m;
    assert t[0] == s[0] && t[1] == s[1] && t[3] == s[3] && t[4] == s[4];
    assert t == s;
  }

  /** Python's ordering of strings: lexicographic by code point. */
  predicate TextLess(a: string, b: string)
    decreases |a|
  {
    if a == [] then b != []
    else b != [] && (a[0] < b[0] || (a[0] == b[0] && TextLess(a[1..], b[1..])))
  }

  /** Sorting "HH:MM" labels as text sorts them by time of day. */
  lemma ClockLabelOrder(m1: int, m2: int)
    requires 0 <= m1 < m2 < MinutesPerDay
    ensures TextLess(FormatClock(m1), FormatClock(m2))
  {
    var a, b := FormatClock(m1), FormatClock(m2);
    var h1, h2 := m1 / 60, m2 / 60;
    assert h1 <= h2;
    if h1 / 10 < h2 / 10 {
      assert a[0] < b[0];
    } else if h1 % 10 < h2 % 10 {
      assert a[0] == b[0] && a[1] < b[1];
      assert TextLess(a[1..], b[1..]);
    } else {
      assert h1 == h2;
      assert a[..3] == b[..3];
      assert a[1..][1..][1..] == a[3..] && b[1..][1..][1..] == b[3..];
      if (m1 % 60) / 10 < (m2 % 60) / 10 {
        assert TextLess(a[3..], b[3..]);
      } else {
        assert a[3] == b[3] && a[4] < b[4];
        assert TextLess(a[3..][1..], b[3..][1..]);
        assert TextLess(a[3..], b[3..]);
      }
      assert TextLess(a[2..], b[2..]);
      assert TextLess(a[1..], b[1..]);
    }
  }

  /** local_to_utc_iso(date + " " + time): None stands for the ValueError of a malformed time. */
  function LocalToUtcIso(day: int, time: string, z: Zone): (r: Option<int>)
    ensures r.Some? <==> ParseClock(time).Some?
  {
    match ParseClock(time)
    case None => None
    case Some(minute) => Some(LocalToUtc(WallClock(day, minute), z))
  }

  /**
   * utc_iso_to_local_str: the local date and the "HH:MM" label of an instant. Read back, the
   * date and label name the local minute that contains the instant.
   */
  function UtcToLocalStr(t: int, z: Zone): (r: (int, string))
    ensures ParseClock(r.1).Some?
    ensures var shown := WallClock(r.0, ParseClock(r.1).value);
            LocalToUtc(shown, z) <= t < LocalToUtc(shown, z) + SecondsPerMinute
  {
    var l := UtcToLocal(t, z);
    ClockRoundTrip(l.minute);
    (l.day, FormatClock(l.minute))
  }

  /** A local date and time that convert to UTC convert back to the same date and label. */
  lemma LocalStrRoundTrip(day: int, time: string, z: Zone)
    requires LocalToUtcIso(day, time, z).Some?
    ensures UtcToLocalStr(LocalToUtcIso(day, time, z).value, z) == (day, time)
  {
    var minute := ParseClock(time).value;
    LocalUtcRoundTrip(WallClock(day, minute), z);
    ClockLabelCanonical(time);
  }

  /** unique_sorted_dates_local: the distinct local dates of `instants`, ascending. */
  method UniqueSortedDatesLocal(instants: seq<int>, z: Zone) returns (dates: seq<int>)
    ensures StrictlySortedBy(dates, d => d)
    ensures forall i :: 0 <= i < |instants| ==> LocalDate(instants[i], z) in dates
    ensures forall k :: 0 <= k < |dates| ==> exists i :: 0 <= i < |instants| && LocalDate(instants[i], z) == dates[k]
    ensures |dates| <= |instants|
  {
    var seen: set<int> := {};
    var found: seq<int> := [];
    for i := 0 to |instants|
      invariant forall d :: d in seen <==> d in found
      invariant Distinct(found)
      invariant |found| <= i
      invariant forall j :: 0 <= j < i ==> LocalDate(instants[j], z) in seen
      invariant forall k :: 0 <= k < |found| ==> exists j :: 0 <= j < i && LocalDate(instants[j], z) == found[k]
    {
      var d := LocalDate(instants[i], z);
      if d !in seen {
        seen := seen + {d};
        found := found + [d];
      }
    }
    dates := SortByKey(found, d => d);
    DistinctPermutation(found, dates);
    SortedDistinctKeysIsStrict(dates, d => d);
    forall x | x in found ensures x in dates {
      assert x in multiset(found);
    }
    forall k | 0 <= k < |dates| ensures dates[k] in found {
      assert dates[k] in multiset(dates);
    }
  }
}

=== FILE: wrappers.dfy ===
/** Option and Result values used for the absent rows and the error returns of the bot. */
module Wrappers {

  datatype Option<+T> = None | Some(value: T)

  datatype Result<+T, +E> = Ok(value: T) | Err(error: E)
}
